=== FILE: README.md ===
# OBD2Meter communicator, modelled in Dafny

OBD2Meter is an iOS meter that talks to an ELM327-style OBD-II adapter over a
serial-over-BLE link. Its `OBDCommunicater` turns a stream of text chunks from
the adapter into request/response pairs. The link has no request ids, so the
pairing rests on four rules:

- **Gate tokens.** A command is written only when a "write available" token is
  free. One token exists at start (`startWith(true)`), and every received
  chunk ending in `>` (the adapter's prompt) adds one.
- **FIFO admission.** `zip` pairs tokens with queued commands in order. The
  admitted command becomes `currentCommand`, and its text plus `"\r"` is written.
- **Framing.** `buffer(_:)` cuts the received chunks into windows at every
  prompt. A window's frame text is the concatenation of its chunks that do not
  end with `>`.
- **Dispatch.** Each frame goes to the completion of the current command, if
  there is one.

The project models:

- `ObservableBuffer`: the boundary-delimited accumulator `Observable.buffer(_:)`.
  It is a class `BoundaryBuffer` whose two handlers update the pending buffer
  in place. Its invariant says nothing is lost or duplicated.
- `Framing`: prompts, frame text and the write payload, as pure functions, with
  lemmas on how frame text splits over windows.
- `Multiplexer`: the communicator's pipeline as a state machine `Step` over
  three serialized inputs: `Enqueue(text)`, `Receive(chunk)` and `StreamEnd`.
  `RunReachable` proves one invariant of every reachable state. The listed
  properties follow from it as lemmas about `Run(inputs)`. `PairedResponses`
  proves the pairing itself: when the adapter prompts only in answer to a
  command (`Lockstep`), command j resolves with the text of the j-th frame.
  `SparePromptAdmitsTwo` shows a run where that condition fails.
- `OBDCommunicator`: the class `Communicater`. It holds the queue, the token
  count, the current command, a `BoundaryBuffer` of chunks, and logs of the
  completion calls and the writes, plus a ghost history of its inputs. The
  entry points (the constructor, `Send`, `SendAll`, `Receive` and `Close`)
  keep `State() == Multiplexer.Run(inputs)`, so the `Multiplexer` lemmas hold
  of the object (`WritesOfCommunicater`, `ResponsesOfCommunicater`). The
  other methods are the steps those entry points are made of, each proved
  against the piece of `Multiplexer.Step` it performs.
- `ViewModel`: `parse(response:)` as `Parse`, built from `Trim`,
  `RemoveSpaces`, `DropFirst` and `IntRadix16`. `logged(_:)` is the method
  `Log.Logged`.
- `Scenarios`: concrete runs using the meter's speed and engine-speed commands
  and typical adapter responses to them.

Notable behaviours of the code, which the model follows:

- When the read stream completes, the pending window is flushed and delivered
  to the current command, like any other frame.
- A chunk that ends with `>` is dropped from the frame text whole, including
  the text before its `>`. So `"41 0"` followed by `"D 32>"` yields the frame
  `"41 0"`.
- The `false` gate events are filtered out before `zip`, so they never take a
  token back. A prompt that answers the written command gives back the one
  token `zip` used for it. But a prompt that arrives while no written command
  is awaiting its answer (as many prompts as writes before it, for instance a
  prompt before the first command) adds a spare token, and two later commands
  are then written back to back (`Scenarios.SparePromptAdmitsTwo`).
- `currentCommand` is never cleared. A command has no failure or timeout
  result.

## Model

| member | source | states |
|---|---|---|
| ObservableBuffer.BoundaryBuffer.Valid | OBD2Meter/Classes/Observable+Util.swift:9-41 | the no-loss invariant every handler keeps: while running, the emitted batches followed by the pending buffer are the source elements received; after completion the batches alone are; after an error they are a prefix and the buffer is empty; only the last event sent downstream is terminal |
| ObservableBuffer.BoundaryBuffer.constructor | OBD2Meter/Classes/Observable+Util.swift:10-12 | a new subscription starts with an empty pending buffer, running, with nothing received or emitted; the no-loss invariant holds |
| ObservableBuffer.BoundaryBuffer.OnBoundary | OBD2Meter/Classes/Observable+Util.swift:14-23 | a boundary `next` while running emits exactly the pending buffer (possibly empty) as one batch and empties it; boundary `completed`/`error`, or any event after the stream stopped, emits nothing and changes nothing; the no-loss invariant is kept |
| ObservableBuffer.BoundaryBuffer.Emit | OBD2Meter/Classes/Observable+Util.swift:17-19 | the emitted batch is the old pending buffer, the buffer becomes empty, and the concatenated batches followed by the buffer still equal the source elements received |
| ObservableBuffer.BoundaryBuffer.OnSource | OBD2Meter/Classes/Observable+Util.swift:25-37 | per source event: `next` appends the element to the buffer and emits nothing; `completed` emits the pending buffer (even when empty) and then completion; `error` emits only the error and discards the buffer; after a terminal event nothing changes |
| ObservableBuffer.BoundaryBuffer.Take | OBD2Meter/Classes/Observable+Util.swift:28-29 | the element joins the end of the pending buffer and of the received history; nothing is emitted |
| ObservableBuffer.BoundaryBuffer.Finish | OBD2Meter/Classes/Observable+Util.swift:30-32 | completion emits `[next(buffer), completed]`, and afterwards the emitted batches alone are exactly the source elements |
| ObservableBuffer.BoundaryBuffer.Fail | OBD2Meter/Classes/Observable+Util.swift:33-35 | an error emits only the error; the pending buffer is dropped unemitted, so the emitted batches are a prefix of the source elements |
| Framing.IsPrompt | OBD2Meter/Classes/OBD/OBDCommunicator.swift:33 | a chunk is a prompt when its last character is `>`; `KeptChunk` and `DroppedChunk` state what that means for frame text |
| Framing.FrameText | OBD2Meter/Classes/OBD/OBDCommunicator.swift:51 | a window's frame text: its chunks that do not end with `>`, joined in order; the lemmas below state how it splits, keeps and drops chunks |
| Framing.Payload | OBD2Meter/Classes/OBD/OBDCommunicator.swift:69 | the bytes written for a command: its text followed by `"\r"`; `FifoAdmission` states which payloads are written, and in what order |
| Framing.FrameTextAppend | OBD2Meter/Classes/OBD/OBDCommunicator.swift:51 | the frame text of two windows joined is the concatenation of their frame texts, so chunk order is kept |
| Framing.FrameTextSingle | OBD2Meter/Classes/OBD/OBDCommunicator.swift:51 | a single chunk contributes all of its text, or nothing when it ends with `>` |
| Framing.KeptChunk | OBD2Meter/Classes/OBD/OBDCommunicator.swift:51 | a chunk that does not end with `>` stays whole in the frame text, in its place, even if it holds `>` elsewhere |
| Framing.DroppedChunk | OBD2Meter/Classes/OBD/OBDCommunicator.swift:51 | a chunk ending with `>` is dropped from the frame text whole, including the text before the `>` |
| Framing.FrameTextsConcat | OBD2Meter/Classes/OBD/OBDCommunicator.swift:49-51 | cutting chunks into windows loses no frame text: the windows' frame texts concatenated equal the frame text of all their chunks |
| Multiplexer.Init | OBD2Meter/Classes/OBD/OBDCommunicator.swift:36-40 | right after `setup()`: one token from `startWith(true)`, and nothing queued, current, buffered, delivered or written; `RunReachable` starts from it |
| Multiplexer.Admit | OBD2Meter/Classes/OBD/OBDCommunicator.swift:42-47 | `zip` pairs the oldest queued command with a buffered token, makes it current and writes it; `AdmitKeeps` proves it restores the admission invariant |
| Multiplexer.Dispatch | OBD2Meter/Classes/OBD/OBDCommunicator.swift:49-56 | an emitted window is recorded, and its frame text goes to the current command's completion, or to nobody; `DispatchToLastAdmitted` states the recipient |
| Multiplexer.Step | OBD2Meter/Classes/OBD/OBDCommunicator.swift:23-78 | one serialized input: an enqueue, a chunk (ignored when undecodable or after the end, a prompt dispatching, opening a window, adding a token and admitting) or the end of the stream; `StepKeeps` proves it keeps the invariant |
| Multiplexer.StepKeeps | OBD2Meter/Classes/OBD/OBDCommunicator.swift:23-78 | every input keeps the invariant, relative to the summaries of the inputs extended by that input |
| Multiplexer.Run | OBD2Meter/Classes/OBD/OBDCommunicator.swift:23-78 | the state after a history of inputs from `Init()`; `RunReachable` proves the invariant of every such state |
| Multiplexer.RunReachable | OBD2Meter/Classes/OBD/OBDCommunicator.swift:23-78 | every reachable state keeps the admission bookkeeping, the no-loss framing and the dispatch bookkeeping, relative to the commands enqueued, chunks received and prompts seen so far |
| Multiplexer.AdmissionBound | OBD2Meter/Classes/OBD/OBDCommunicator.swift:32-44 | at most 1 + (prompt chunks received) commands are ever admitted, and the buffered tokens are exactly the tokens issued minus the admissions, so no token is ever revoked |
| Multiplexer.AdmissionCount | OBD2Meter/Classes/OBD/OBDCommunicator.swift:42-47 | `zip` admits exactly min(commands enqueued, 1 + prompts) commands |
| Multiplexer.FifoAdmission | OBD2Meter/Classes/OBD/OBDCommunicator.swift:42-47 | the k-th write is the k-th enqueued command's text plus `"\r"`, the queue holds the remaining commands in order with their ids, and the current command is the last admitted one |
| Multiplexer.UndecodableIgnored | OBD2Meter/Classes/OBD/OBDCommunicator.swift:24-29 | a chunk that fails decoding changes no state, adds no text and is not a prompt |
| Multiplexer.PromptAddsToken | OBD2Meter/Classes/OBD/OBDCommunicator.swift:32-40 | on an open stream a decoded chunk is received in order, and it adds a token exactly when its text ends with `>` |
| Multiplexer.LosslessFraming | OBD2Meter/Classes/OBD/OBDCommunicator.swift:49-51 | the emitted windows followed by the pending buffer are the decoded chunks in arrival order, and the frame texts concatenated are the frame text of everything received |
| Multiplexer.CurrentIsLastAdmitted | OBD2Meter/Classes/OBD/OBDCommunicator.swift:42-47 | a command is current exactly when one has been written, and it is the last one written |
| Multiplexer.DispatchToLastAdmitted | OBD2Meter/Classes/OBD/OBDCommunicator.swift:49-56 | a prompt emits the pending window, and its frame text goes to the most recently admitted command, or to nobody before the first admission |
| Multiplexer.FlushOnStreamEnd | OBD2Meter/Classes/Observable+Util.swift:30-32 | when the read stream completes, the pending window is emitted and delivered to the most recently admitted command, and the stream is marked ended |
| Multiplexer.DeliveriesFollowAdmissions | OBD2Meter/Classes/OBD/OBDCommunicator.swift:53-56 | nothing is delivered before the first admission; every delivery goes to an admitted command, recipients never go back to an earlier command, and the delivered texts are the frame texts of the last windows, in order |
| Multiplexer.CurrentNeverCleared | OBD2Meter/Classes/OBD/OBDCommunicator.swift:14 | once a command is current, some command stays current after every input |
| Multiplexer.RepeatedDelivery | OBD2Meter/Classes/OBD/OBDCommunicator.swift:53-56 | with nothing queued, a further prompt admits nobody, and the frame goes to the same command's completion again |
| Multiplexer.Response | OBD2Meter/Classes/OBD/OBDCommunicator.swift:80-88 | a command has a result exactly when some delivery went to it; there is no failure result |
| Multiplexer.ResponseIsFirst | OBD2Meter/Classes/OBD/OBDCommunicator.swift:81-84 | a command's result is the text of the first delivery to it |
| Multiplexer.ResponseSettled | OBD2Meter/Classes/OBD/OBDCommunicator.swift:81-84 | later deliveries never change a result that is already there |
| Multiplexer.DeliveriesGrow | OBD2Meter/Classes/OBD/OBDCommunicator.swift:53-56 | completion calls are only ever appended to |
| Multiplexer.ResolvedOnce | OBD2Meter/Classes/OBD/OBDCommunicator.swift:80-88 | once a command has its result, no later inputs change it |
| Multiplexer.Lockstep | OBD2Meter/Classes/OBD/OBDCommunicator.swift:32-47 | the adapter prompts only in answer to a command: every prompt on an open stream arrives while the writes outnumber the prompts received before it |
| Multiplexer.PairedStep | OBD2Meter/Classes/OBD/OBDCommunicator.swift:32-56 | one input keeps the one-to-one pairing of frames and commands when a prompt finds command number `prompts` current |
| Multiplexer.LockstepPairs | OBD2Meter/Classes/OBD/OBDCommunicator.swift:32-56 | under `Lockstep` the k-th frame goes to the k-th command admitted, one delivery each, and while the stream is open there is no other delivery and no other window |
| Multiplexer.PairedResponse | OBD2Meter/Classes/OBD/OBDCommunicator.swift:80-88 | in a paired state, command j's result is the frame text of the j-th window |
| Multiplexer.PairedResponses | OBD2Meter/Classes/OBD/OBDCommunicator.swift:49-88 | under `Lockstep`, every command answered by a prompt resolves with the text of its own frame: command j with the j-th window's |
| Multiplexer.EnqueuedAll | OBD2Meter/Classes/OBD/OBDCommunicator.swift:90-91 | the commands a batch enqueues are exactly its array |
| Multiplexer.BatchIds | OBD2Meter/Classes/OBD/OBDCommunicator.swift:90-91 | the batch's k-th command is the (n + k)-th command enqueued, so it gets id n + k, where n is the id counter before the batch; the counter advances by the batch size |
| Multiplexer.WritesAreEnqueued | OBD2Meter/Classes/OBD/OBDCommunicator.swift:63-75 | each write is an enqueued command's text plus `"\r"`, and there are no more writes than commands enqueued |
| Multiplexer.BatchInOrder | OBD2Meter/Classes/OBD/OBDCommunicator.swift:90-91 | whatever comes later, the batch's k-th command is written as write n + k, where n is the number of commands enqueued before the batch |
| Multiplexer.BatchDone | OBD2Meter/Classes/OBD/OBDCommunicator.swift:91 | the batch's `Single<Void>` succeeds once every command in it has a result; `BatchSettled` proves it then stays done |
| Multiplexer.BatchSettled | OBD2Meter/Classes/OBD/OBDCommunicator.swift:90-92 | once every command of a batch has a result, the batch stays done under any later inputs |
| OBDCommunicator.Communicater.Valid | OBD2Meter/Classes/OBD/OBDCommunicator.swift:24-50 | the frame buffer keeps its no-loss invariant, and a stopped buffer has completed, because read errors are caught into completion |
| OBDCommunicator.Communicater.State | OBD2Meter/Classes/OBD/OBDCommunicator.swift:13-14 | the abstract multiplexer state the object stands for: the queue and tokens held by `zip`, the `currentCommand` relay, the frame buffer and the logs |
| OBDCommunicator.Communicater.Tracks | OBD2Meter/Classes/OBD/OBDCommunicator.swift:23-78 | the object is valid and in the state `Run` gives for its input history |
| OBDCommunicator.Communicater.constructor | OBD2Meter/Classes/OBD/OBDCommunicator.swift:18-21 | after `setup()` nothing is queued or current, one token is available, the frame buffer is empty and the history is empty: the abstract state is `Init()`, which `Run([])` is |
| OBDCommunicator.Communicater.AdmitNext | OBD2Meter/Classes/OBD/OBDCommunicator.swift:42-47 | if a token and a queued command are both present, the oldest command is dequeued, made current and written with `"\r"`; the new state is `Admit` of the old one |
| OBDCommunicator.Communicater.Complete | OBD2Meter/Classes/OBD/OBDCommunicator.swift:53-56 | the window's frame text goes to the current command's completion, or to nobody when none is current |
| OBDCommunicator.Communicater.Send | OBD2Meter/Classes/OBD/OBDCommunicator.swift:80-88 | one subscription to the returned `Single`: the command is queued under the next id, which is returned; the new state is one `Enqueue` step from the old one, and the history grows by that input |
| OBDCommunicator.Communicater.SendAll | OBD2Meter/Classes/OBD/OBDCommunicator.swift:90-92 | one subscription to the zipped `Single`: the commands are sent in array order, the k-th getting id n + k for the old id counter n; the new state is the old one run through `EnqueueAll(commands)`, and the history grows by those inputs |
| OBDCommunicator.Communicater.Receive | OBD2Meter/Classes/OBD/OBDCommunicator.swift:24-56 | one chunk from `read()` moves the object exactly as one `Receive` step of the state machine, and the history grows by that input |
| OBDCommunicator.Communicater.Consume | OBD2Meter/Classes/OBD/OBDCommunicator.swift:24-56 | the chunk's effect: an undecodable chunk or one after the end changes nothing, a prompt is handled by `ReceivePrompt`, any other chunk joins the pending window; one `Receive` step |
| OBDCommunicator.Communicater.ReceivePrompt | OBD2Meter/Classes/OBD/OBDCommunicator.swift:32-56 | a prompt chunk dispatches the pending frame, opens the next window, adds a token and admits, matching `Step` |
| OBDCommunicator.Communicater.OpenWindow | OBD2Meter/Classes/OBD/OBDCommunicator.swift:36-40 | the prompt chunk becomes the new pending window and its `true` joins the tokens |
| OBDCommunicator.Communicater.DispatchPending | OBD2Meter/Classes/OBD/OBDCommunicator.swift:49-56 | the pending window is emitted and dispatched as `Dispatch` says, and the buffer is emptied |
| OBDCommunicator.Communicater.Cut | OBD2Meter/Classes/Observable+Util.swift:17-19 | the boundary fires: the window returned is the old pending buffer, which is appended to the emitted windows and emptied |
| OBDCommunicator.Communicater.Append | OBD2Meter/Classes/Observable+Util.swift:28-29 | a chunk joins the end of the pending window |
| OBDCommunicator.Communicater.Flush | OBD2Meter/Classes/Observable+Util.swift:30-32 | source completion emits the pending window and stops the frame buffer; the boundary's completion changes nothing |
| OBDCommunicator.Communicater.Close | OBD2Meter/Classes/OBD/OBDCommunicator.swift:24-29 | the end of the read stream (an error is caught into completion) moves the object exactly as one `StreamEnd` step, and the history grows by that input |
| OBDCommunicator.Communicater.EndStream | OBD2Meter/Classes/Observable+Util.swift:30-32 | the pending window is flushed and delivered to the current command once; after the end nothing changes; one `StreamEnd` step |
| OBDCommunicator.WritesOfCommunicater | OBD2Meter/Classes/OBD/OBDCommunicator.swift:42-75 | the object has written min(commands sent, 1 + prompts) commands, the k-th being the k-th command sent followed by `"\r"` |
| OBDCommunicator.ResponsesOfCommunicater | OBD2Meter/Classes/OBD/OBDCommunicator.swift:49-88 | when the adapter has prompted only in answer to a command, the object has resolved command j with the text of the j-th frame |
| Scenarios.TwoResponsesInOrder | OBD2Meter/Classes/OBD/OBDCommunicator.swift:32-56 | two queued commands are written one per prompt, and each gets its own response |
| Scenarios.SplitResponseKeepsFirstChunkOnly | OBD2Meter/Classes/OBD/OBDCommunicator.swift:51 | for `"41 0"` then `"D 32>"`, the frame is `"41 0"`: the prompt chunk is dropped whole |
| Scenarios.SpuriousFrameDiscarded | OBD2Meter/Classes/OBD/OBDCommunicator.swift:53-56 | a frame that arrives before any admission resolves nothing, and the next command still gets its own response |
| Scenarios.SparePromptAdmitsTwo | OBD2Meter/Classes/OBD/OBDCommunicator.swift:36-43 | a prompt before any command leaves a spare token, so two commands are written back to back, and the first command gets no response |
| ViewModel.IsWhitespaceOrNewline | OBD2Meter/Classes/ViewModel.swift:285 | the characters `trimmingCharacters(in: .whitespacesAndNewlines)` removes: Unicode space separators, line and paragraph separators, tab to carriage return and NEXT LINE |
| ViewModel.TrimLeading | OBD2Meter/Classes/ViewModel.swift:285 | the result is a suffix of the input that does not start with whitespace or a newline |
| ViewModel.TrimTrailing | OBD2Meter/Classes/ViewModel.swift:285 | the result is a prefix of the input that does not end with whitespace or a newline |
| ViewModel.TrimLeadingRemovesWhitespace | OBD2Meter/Classes/ViewModel.swift:285 | everything the leading trim removes is whitespace or newlines |
| ViewModel.TrimTrailingRemovesWhitespace | OBD2Meter/Classes/ViewModel.swift:285 | everything the trailing trim removes is whitespace or newlines |
| ViewModel.Trim | OBD2Meter/Classes/ViewModel.swift:285 | the trimmed text is no longer than the input, and it neither starts nor ends with whitespace or a newline |
| ViewModel.TrimPadded | OBD2Meter/Classes/ViewModel.swift:285 | the input is whitespace, then the trimmed text, then whitespace |
| ViewModel.TrimPadding | OBD2Meter/Classes/ViewModel.swift:285 | trimming whitespace padding off a text without outer whitespace gives that text back |
| ViewModel.RemoveSpaces | OBD2Meter/Classes/ViewModel.swift:285 | the result holds no `" "`, and every other character occurs as often as in the input |
| ViewModel.RemoveSpacesAppend | OBD2Meter/Classes/ViewModel.swift:285 | space removal works piece by piece, so the kept characters stay in order |
| ViewModel.RemoveSpacesNone | OBD2Meter/Classes/ViewModel.swift:285 | a text without spaces is left unchanged |
| ViewModel.DropHeader | OBD2Meter/Classes/ViewModel.swift:285 | any four-character header is dropped unchecked |
| ViewModel.HexDigit | OBD2Meter/Classes/ViewModel.swift:286 | the value of a hexadecimal digit of either case, below 16, and none for any other character |
| ViewModel.DigitsValue | OBD2Meter/Classes/ViewModel.swift:286 | the value of a run of hexadecimal digits, most significant first; `HexNumeralValue` proves it inverts the numeral of every natural number |
| ViewModel.IntRadix16 | OBD2Meter/Classes/ViewModel.swift:286 | a result is always a 64-bit `Int`, and the empty text and a lone sign give none |
| ViewModel.HexRoundTrip | OBD2Meter/Classes/ViewModel.swift:286 | every `Int` from 0 up reads back from its upper-case hexadecimal numeral |
| ViewModel.Tail | OBD2Meter/Classes/ViewModel.swift:285 | the text handed to `Int(_:radix:)`: trimmed, without spaces, first four characters dropped; `TailAfterHeader` states what it is for a padded response |
| ViewModel.Parsable | OBD2Meter/Classes/ViewModel.swift:286 | the force unwrap does not trap; `ParsableNeedsFive` and `ParseReadsHexTail` state when it holds |
| ViewModel.Parse | OBD2Meter/Classes/ViewModel.swift:283-287 | under the no-trap precondition, the result is a 64-bit `Int` |
| ViewModel.ParsableNeedsFive | OBD2Meter/Classes/ViewModel.swift:286 | a response that does not trap has at least five characters once it is trimmed and its spaces are removed |
| ViewModel.TailAfterHeader | OBD2Meter/Classes/ViewModel.swift:285 | for any whitespace padding, a header that spaces aside has four characters, and a rest: the text handed to `Int(_:radix:)` is the rest without its spaces |
| ViewModel.ParseReadsHexTail | OBD2Meter/Classes/ViewModel.swift:285-286 | for any whitespace padding, any header that spaces aside has four characters (never checked), and a rest whose non-space characters are hexadecimal digits of either case (leading zeros and inner spaces allowed) with a value that fits in an `Int`: `parse` does not trap and returns that value |
| ViewModel.ParseSpeedExample | OBD2Meter/Classes/ViewModel.swift:283-287 | a typical adapter answer to the speed command, `"41 0D 32"`, parses to 50 |
| ViewModel.ParseZeroPaddedExample | OBD2Meter/Classes/ViewModel.swift:283-287 | `"41 0D 05"` with its carriage return still attached parses to 5 |
| ViewModel.ParseRpmExample | OBD2Meter/Classes/ViewModel.swift:283-287 | a typical adapter answer to the engine-speed command, `"41 0C 1F40"`, parses to 8000 |
| ViewModel.Log.constructor | OBD2Meter/Classes/ViewModel.swift:129 | the log starts empty |
| ViewModel.Log.Logged | OBD2Meter/Classes/ViewModel.swift:277-279 | the message and then `"\n"` are appended, and the earlier text is left as a prefix |

## Left out

- Bluetooth scanning, connection and service discovery, and `OBDSerialConnection`. `read()` is the sequence of `Receive`/`StreamEnd` inputs, and `write` is the `writes` log.
- OBDCommunicator.Communicater.Send: one call stands for one subscription to the `Single` that `send(command:)` returns. In Swift that `Single` is cold: a call whose result is never subscribed queues nothing, and each further subscription queues the command again with a new completion. The model queues the command exactly once, when called.
- OBDCommunicator.Communicater.SendAll: one call stands for one subscription to the zipped `Single` that `send(commands:)` returns. An unsubscribed call queues nothing, and each further subscription queues the whole batch again. The model queues the batch exactly once, when called.
- Write errors. An error in the write chain only ends that subscription, and the model assumes every write succeeds.
- UTF-8 decoding. A chunk is either its decoded text or `Undecodable`.
- Scheduler hops (`observeOn(MainScheduler.asyncInstance)`), the `NSRecursiveLock`, Rx disposal and `share(replay:)`. Events are a serialized sequence, and an admission is placed after the synchronous frame dispatch of the same prompt.
- Closure identity. A command's completion is identified by its enqueue position (`id`), and a `Single`'s result is the first completion call to it.
- Multiplexer.BatchDone: an empty batch counts as done at once. What `Single.zip` does with an empty array depends on the Rx library, which is not part of this model.
- ViewModel.RemoveSpaces: works on Unicode scalars, while Swift's `filter { $0 != " " }` works on grapheme clusters, so a space joined to a following combining mark is removed here and kept by Swift. The two agree on the ASCII text an adapter sends.
- Framing.IsPrompt: tests the last Unicode scalar, while Swift's `hasSuffix(">")` compares grapheme clusters, so a `>` that joins a preceding prepended-concatenation mark (such as U+0600) is a prompt here and not in Swift. The two agree on the ASCII text an adapter sends.
- ViewModel.DropFirst: counts Unicode scalars, while Swift's `dropFirst(4)` counts grapheme clusters. The two agree on the ASCII text an adapter sends.
- Whitespace in `Trim` is a fixed list of Unicode space and line-break characters, standing for Foundation's `CharacterSet.whitespacesAndNewlines`.
- The `print` logging, the polling timers, the floating-point unit conversions, the rest of the view model and `ViewController.swift`. These are plumbing, timers and UI.

=== FILE: communicator.dfy ===
/**
 * `OBDCommunicater` (OBD2Meter/Classes/OBD/OBDCommunicator.swift:9-93) as an
 * object: the buffers that `zip` keeps (queued commands, write-available
 * tokens), the `currentCommand` relay, the frame buffer built by
 * `buffer(_:)`, and two logs standing for the calls it makes: completions
 * called with a frame's text, and payloads passed to `connection.write`.
 * The object keeps the history of the inputs it has been given, and its
 * entry points (the constructor, `Send`, `SendAll`, `Receive` and `Close`)
 * keep its abstract state equal to `Multiplexer.Run` of that history, so the
 * lemmas of `Multiplexer` hold of it.  The other methods are the steps those
 * entry points are made of, each proved against the piece of `Multiplexer.Step`
 * it performs.
 */
module OBDCommunicator {
  import opened Wrappers
  import opened ObservableBuffer
  import opened Framing
  import opened Multiplexer

  class Communicater {
    var queue: seq<Command>
    var nextId: nat
    var tokens: nat
    var current: Option<Command>
    const framer: BoundaryBuffer<string>
    var deliveries: seq<Delivery>
    var writes: seq<string>
    ghost var inputs: seq<Input>

    /**
     * The frame buffer is consistent, and it never sees an error: read errors
     * are caught into completion, so a stopped buffer has completed.
     */
    ghost predicate Valid()
      reads this, framer
    {
      && framer.Valid()
      && (framer.stopped ==> framer.output[|framer.output| - 1].Completed?)
    }

    /** The abstract state this object stands for. */
    ghost function State(): MuxState
      reads this, framer
    {
      MuxState(queue, nextId, tokens, current, framer.buffer, framer.batches,
               deliveries, writes, framer.stopped)
    }

    /** The object is in the state its input history leads to. */
    ghost predicate Tracks()
      reads this, framer
    {
      Valid() && State() == Run(inputs)
    }

    /** `init` and `setup()`: nothing queued, no current command, one token from `startWith(true)`. */
    constructor ()
      ensures Tracks() && fresh(framer)
      ensures State() == Init() && inputs == []
    {
      queue := [];
      nextId := 0;
      tokens := 1;
      current := None;
      framer := new BoundaryBuffer<string>();
      deliveries := [];
      writes := [];
      inputs := [];
    }

    /**
     * `zip` pairs a token with the oldest queued command; the command is bound
     * to `currentCommand` and its text plus a carriage return is written.
     */
    method AdmitNext()
      requires Valid()
      modifies this
      ensures Valid()
      ensures State() == Admit(old(State()))
    {
      if tokens > 0 && queue != [] {
        var command := queue[0];
        queue := queue[1..];
        tokens := tokens - 1;
        current := Some(command);
        writes := writes + [Payload(command.text)];
      }
    }

    /** `withLatestFrom(currentCommand)` and `command?.completion(response)`. */
    method Complete(window: seq<string>)
      requires Valid()
      modifies this
      ensures Valid()
      ensures State() == old(State()).(deliveries := old(deliveries) +
        (if old(current).Some? then [Delivery(old(current).value.id, FrameText(window))] else []))
    {
      match current
      case Some(command) =>
        deliveries := deliveries + [Delivery(command.id, FrameText(window))];
      case None =>
    }

    /**
     * One subscription to the `Single` that `send(command:)` returns: its
     * `commandQueue.onNext` puts the command in the queue, and the command is
     * admitted at once if a token is waiting.
     */
    method Send(command: string) returns (id: nat)
      requires Tracks()
      modifies this
      ensures Tracks() && inputs == old(inputs) + [Enqueue(command)]
      ensures id == old(nextId)
      ensures State() == Step(old(State()), Enqueue(command))
    {
      ghost var before, s := inputs, State();
      id := nextId;
      queue := queue + [Command(id, command)];
      nextId := nextId + 1;
      AdmitNext();
      inputs := before + [Enqueue(command)];
      RunExtends(before, Enqueue(command), s, State());
    }

    /**
     * One subscription to the zipped `Single` that `send(commands:)` returns:
     * each command's `Single` is subscribed in array order, so the commands
     * are enqueued one after the other; their ids are returned, and the batch
     * is done once `BatchDone(deliveries, ids)` holds.
     */
    method SendAll(commands: seq<string>) returns (ids: seq<nat>)
      requires Tracks()
      modifies this
      ensures Tracks() && inputs == old(inputs) + EnqueueAll(commands)
      ensures State() == RunFrom(old(State()), EnqueueAll(commands))
      ensures |ids| == |commands| && forall k :: 0 <= k < |ids| ==> ids[k] == old(nextId) + k
    {
      ids := [];
      ghost var before := inputs;
      var i := 0;
      while i < |commands|
        invariant 0 <= i <= |commands|
        invariant Tracks() && inputs == before + EnqueueAll(commands[..i])
        invariant nextId == old(nextId) + i
        invariant |ids| == i && forall k :: 0 <= k < i ==> ids[k] == old(nextId) + k
      {
        var id := Send(commands[i]);
        EnqueueAllExtend(before, commands, i);
        ids := ids + [id];
        i := i + 1;
      }
      assert commands[..i] == commands;
      RunBatch(before, commands);
    }

    /**
     * One chunk from `connection.read()`.  A chunk that does not decode is
     * dropped.  A prompt fires the frame buffer's boundary before the chunk
     * itself reaches the buffer, so the pending window becomes a frame for
     * the current command and the prompt chunk opens the next window; then
     * the prompt's token may admit the next command.  Any other chunk is
     * appended to the pending window.
     */
    method Receive(chunk: Chunk)
      requires Tracks()
      modifies this, framer
      ensures Tracks() && inputs == old(inputs) + [Input.Receive(chunk)]
      ensures State() == Step(old(State()), Input.Receive(chunk))
    {
      ghost var before, s := inputs, State();
      Consume(chunk);
      inputs := before + [Input.Receive(chunk)];
      RunExtends(before, Input.Receive(chunk), s, State());
    }

    /** The chunk's effect on the communicator, one `Receive` step of the state machine. */
    method Consume(chunk: Chunk)
      requires Valid()
      modifies this, framer
      ensures Valid()
      ensures State() == Step(old(State()), Input.Receive(chunk))
    {
      if chunk.Undecodable? || framer.stopped {
        return;
      }
      var text := chunk.text;
      if IsPrompt(text) {
        ReceivePrompt(text);
      } else {
        Append(text);
      }
    }

    method ReceivePrompt(text: string)
      requires Valid() && !framer.stopped && IsPrompt(text)
      modifies this, framer
      ensures Valid()
      ensures State() == Step(old(State()), Input.Receive(Decoded(text)))
    {
      ghost var s := State();
      DispatchPending();
      ghost var cut := Dispatch(s, s.buffer);
      assert cut.tokens == s.tokens;
      OpenWindow(text);
      assert State() == cut.(buffer := [text], tokens := s.tokens + 1);
      AdmitNext();
      PromptStep(s, text);
    }

    /**
     * After the boundary has fired, the prompt chunk reaches the frame buffer
     * and opens the next window, and its `true` joins the tokens buffered in `zip`.
     */
    method OpenWindow(text: string)
      requires Valid() && !framer.stopped && framer.buffer == []
      modifies this, framer
      ensures Valid() && !framer.stopped
      ensures State() == old(State()).(buffer := [text], tokens := old(State()).tokens + 1)
    {
      Append(text);
      assert framer.buffer == [text];
      tokens := tokens + 1;
    }

    /** The boundary fires: the pending window is emitted and its frame goes to the current command. */
    method DispatchPending()
      requires Valid() && !framer.stopped
      modifies this, framer
      ensures Valid() && !framer.stopped
      ensures State() == Dispatch(old(State()), old(State()).buffer).(buffer := [])
    {
      ghost var s := State();
      var window := Cut();
      assert window == s.buffer && current == s.current;
      Complete(window);
    }

    /** The frame buffer's boundary fires: the pending window is emitted and the buffer emptied. */
    method Cut() returns (window: seq<string>)
      requires Valid() && !framer.stopped
      modifies framer
      ensures Valid() && !framer.stopped
      ensures window == old(framer.buffer)
      ensures State() == old(State()).(buffer := [], windows := old(State()).windows + [window])
    {
      var emitted := framer.OnBoundary(Next(()));
      window := emitted[0].element;
    }

    /** A chunk reaches the frame buffer and is appended to the pending window. */
    method Append(text: string)
      requires Valid() && !framer.stopped
      modifies framer
      ensures Valid() && !framer.stopped
      ensures State() == old(State()).(buffer := old(State()).buffer + [text])
    {
      var emitted := framer.OnSource(Next(text));
    }

    /** The frame buffer's source completes: the pending window is emitted and the buffer stops. */
    method Flush() returns (window: seq<string>)
      requires Valid() && !framer.stopped
      modifies framer
      ensures Valid()
      ensures window == old(framer.buffer)
      ensures State() == old(State()).(windows := old(State()).windows + [window], ended := true)
    {
      var emitted := framer.OnBoundary<()>(Completed);
      emitted := framer.OnSource(Completed);
      window := emitted[0].element;
    }

    /**
     * The read stream completes (an error is caught into completion).  The
     * boundary completes first and is ignored; then the source's completion
     * flushes the pending window, which goes to the current command like any
     * other frame.
     */
    method Close()
      requires Tracks()
      modifies this, framer
      ensures Tracks() && inputs == old(inputs) + [StreamEnd]
      ensures State() == Step(old(State()), StreamEnd)
    {
      ghost var before, s := inputs, State();
      EndStream();
      inputs := before + [StreamEnd];
      RunExtends(before, StreamEnd, s, State());
    }

    /** The end of the read stream's effect on the communicator, one `StreamEnd` step. */
    method EndStream()
      requires Valid()
      modifies this, framer
      ensures Valid()
      ensures State() == Step(old(State()), StreamEnd)
    {
      if framer.stopped {
        return;
      }
      ghost var s := State();
      var window := Flush();
      Complete(window);
      assert State() == Dispatch(s, s.buffer).(ended := true);
    }
  }

  /**
   * What the object has written: as many commands as `zip` could pair, the
   * k-th command sent followed by a carriage return as the k-th write.
   */
  lemma WritesOfCommunicater(c: Communicater)
    requires c.Tracks()
    ensures |c.writes| == Min(|Enqueued(c.inputs)|, 1 + Prompts(c.inputs))
    ensures forall k :: 0 <= k < |c.writes| ==> c.writes[k] == Enqueued(c.inputs)[k] + "\r"
  {
    AdmissionCount(c.inputs);
    FifoAdmission(c.inputs);
  }

  /**
   * When the adapter has prompted only in answer to a command, the object
   * has resolved command j with the text of the j-th frame.
   */
  lemma ResponsesOfCommunicater(c: Communicater)
    requires c.Tracks() && Lockstep(c.inputs)
    ensures forall j :: 0 <= j < Prompts(c.inputs) ==>
      && j < |c.framer.batches|
      && Response(c.deliveries, j) == Some(FrameText(c.framer.batches[j]))
  {
    PairedResponses(c.inputs);
  }
}

=== FILE: framing.dfy ===
/**
 * Text-level pieces of the communicator (OBD2Meter/Classes/OBD/OBDCommunicator.swift):
 * which received chunks are prompts, how a window of chunks becomes a
 * frame's text, and the payload written for a command.
 */
module Framing {
  import opened ObservableBuffer

  /**
   * One notification from the read characteristic, after the UTF-8 decoding
   * of OBDCommunicator.swift:25-27: either its text, or a chunk that did not
   * decode (dropped by `unwrap()`).
   */
  datatype Chunk = Decoded(text: string) | Undecodable

  /** A chunk is a prompt when its text ends with the terminator `>` (`hasSuffix(">")`). */
  predicate IsPrompt(text: string)
  {
    |text| > 0 && text[|text| - 1] == '>'
  }

  /**
   * The text of a frame: the window's chunks that do not end with `>`,
   * concatenated in order (`$0.filter { !$0.hasSuffix(">") }.joined()`).
   * A prompt chunk is dropped whole; a `>` elsewhere in a chunk is kept.
   */
  function FrameText(window: seq<string>): string
  {
    if window == [] then ""
    else
      var last := window[|window| - 1];
      FrameText(window[..|window| - 1]) + (if IsPrompt(last) then "" else last)
  }

  /** The frame texts of a sequence of windows, one per window. */
  function FrameTexts(windows: seq<seq<string>>): (r: seq<string>)
    ensures |r| == |windows|
    ensures forall i :: 0 <= i < |windows| ==> r[i] == FrameText(windows[i])
  {
    seq(|windows|, i requires 0 <= i < |windows| => FrameText(windows[i]))
  }

  /** The bytes written for a command: its text followed by a carriage return. */
  function Payload(command: string): string
  {
    command + "\r"
  }

  /** Framing distributes over concatenation of windows. */
  lemma {:induction false} FrameTextAppend(a: seq<string>, b: seq<string>)
    ensures FrameText(a + b) == FrameText(a) + FrameText(b)
    decreases |b|
  {
    if b == [] {
      assert a + b == a;
    } else {
      var b', last := b[..|b| - 1], b[|b| - 1];
      var kept := if IsPrompt(last) then "" else last;
      assert (a + b)[..|a + b| - 1] == a + b';
      assert (a + b)[|a + b| - 1] == last;
      assert FrameText(a + b) == FrameText(a + b') + kept;
      FrameTextAppend(a, b');
      assert FrameText(b) == FrameText(b') + kept;
    }
  }

  /** A single chunk contributes its whole text, or nothing when it is a prompt. */
  lemma FrameTextSingle(chunk: string)
    ensures FrameText([chunk]) == if IsPrompt(chunk) then "" else chunk
  {
    assert [chunk][..0] == [];
  }

  /**
   * A chunk that does not end with `>` stays in the frame text in its place,
   * whatever `>` characters it holds elsewhere.
   */
  lemma KeptChunk(before: seq<string>, chunk: string, after: seq<string>)
    requires !IsPrompt(chunk)
    ensures FrameText(before + [chunk] + after) == FrameText(before) + chunk + FrameText(after)
  {
    FrameTextAppend(before + [chunk], after);
    FrameTextAppend(before, [chunk]);
    FrameTextSingle(chunk);
  }

  /** A prompt chunk is dropped whole, the text before its `>` included. */
  lemma DroppedChunk(before: seq<string>, chunk: string, after: seq<string>)
    requires IsPrompt(chunk)
    ensures FrameText(before + [chunk] + after) == FrameText(before) + FrameText(after)
  {
    FrameTextAppend(before + [chunk], after);
    FrameTextAppend(before, [chunk]);
    FrameTextSingle(chunk);
  }

  /**
   * Cutting a stream of chunks into windows loses no text: the frame texts
   * of the windows, concatenated, are the frame text of all their chunks.
   */
  lemma {:induction false} FrameTextsConcat(windows: seq<seq<string>>)
    ensures Concat(FrameTexts(windows)) == FrameText(Concat(windows))
    decreases |windows|
  {
    if windows != [] {
      var init := windows[..|windows| - 1];
      var last := windows[|windows| - 1];
      FrameTextsConcat(init);
      assert FrameTexts(windows)[..|windows| - 1] == FrameTexts(init);
      FrameTextAppend(Concat(init), last);
    }
  }
}

=== FILE: multiplexer.dfy ===
/**
 * The command/response multiplexer of `OBDCommunicater.setup`
 * (OBD2Meter/Classes/OBD/OBDCommunicator.swift:23-78) as a state machine over
 * serialized inputs, with the reactive pipeline written out:
 *  - the write-available gate is a count of buffered `true` tokens in `zip`
 *    (one from `startWith(true)`, one per prompt chunk; the `false` events
 *    are filtered out before the zip and never revoke one);
 *  - `zip` pairs tokens with queued commands in order and binds each pair's
 *    command to `currentCommand`, which is never cleared;
 *  - received chunks are cut into windows at each prompt by `buffer(_:)`,
 *    and each window's frame text goes to the completion of the current
 *    command, if there is one;
 *  - each admission writes the command text followed by a carriage return.
 */
module Multiplexer {
  import opened Wrappers
  import opened ObservableBuffer
  import opened Framing

  /** A queued command; `id` is its position in enqueue order, standing for the closure's identity. */
  datatype Command = Command(id: nat, text: string)

  /** One call of a command's completion with a frame's text. */
  datatype Delivery = Delivery(id: nat, response: string)

  /** The events that drive the communicator. */
  datatype Input =
    | Enqueue(text: string)  // `commandQueue.onNext` from `send(command:)`
    | Receive(chunk: Chunk)  // one chunk from `connection.read()`
    | StreamEnd              // `connection.read()` completed (errors are caught into completion)

  datatype MuxState = MuxState(
    queue: seq<Command>,       // commands buffered in `zip`, waiting for a token
    nextId: nat,               // the id the next enqueued command gets
    tokens: nat,               // `true` events buffered in `zip`, waiting for a command
    current: Option<Command>,  // the `currentCommand` relay
    buffer: seq<string>,       // the frame buffer's pending chunks
    windows: seq<seq<string>>, // every window the frame buffer has emitted
    deliveries: seq<Delivery>, // every completion call, in order
    writes: seq<string>,       // every payload passed to `connection.write`, in order
    ended: bool)               // the read stream has completed

  /** Right after `setup()`: one token from `startWith(true)`, nothing else. */
  function Init(): MuxState
  {
    MuxState([], 0, 1, None, [], [], [], [], false)
  }

  /** `zip` emits a (token, command) pair as soon as it holds one of each; the command becomes current and is written. */
  function Admit(s: MuxState): MuxState
  {
    if s.tokens > 0 && s.queue != [] then
      s.(queue := s.queue[1..], tokens := s.tokens - 1, current := Some(s.queue[0]),
         writes := s.writes + [Payload(s.queue[0].text)])
    else s
  }

  /** The frame buffer emits `window`; its frame text goes to the current command's completion, if any. */
  function Dispatch(s: MuxState, window: seq<string>): MuxState
  {
    var s' := s.(windows := s.windows + [window]);
    match s.current
    case None => s'
    case Some(c) => s'.(deliveries := s.deliveries + [Delivery(c.id, FrameText(window))])
  }

  /**
   * One input.  On a prompt chunk the boundary fires before the chunk reaches
   * the frame buffer, so the pending window is emitted and the prompt chunk
   * starts the next window; the token it adds admits a command only after the
   * frame has been dispatched, because admission reaches `currentCommand`
   * through `observeOn(MainScheduler.asyncInstance)`.
   */
  function Step(s: MuxState, input: Input): MuxState
  {
    match input
    case Enqueue(text) =>
      Admit(s.(queue := s.queue + [Command(s.nextId, text)], nextId := s.nextId + 1))
    case Receive(Undecodable) => s
    case Receive(Decoded(text)) =>
      if s.ended then s
      else if IsPrompt(text) then
        Admit(Dispatch(s, s.buffer).(buffer := [text], tokens := s.tokens + 1))
      else s.(buffer := s.buffer + [text])
    case StreamEnd =>
      if s.ended then s else Dispatch(s, s.buffer).(ended := true)
  }

  /** A prompt chunk while the stream is open: dispatch, open the next window, add a token, admit. */
  lemma PromptStep(s: MuxState, text: string)
    requires !s.ended && IsPrompt(text)
    ensures Step(s, Receive(Decoded(text))) == Admit(Dispatch(s, s.buffer).(buffer := [text], tokens := s.tokens + 1))
  {
  }

  function RunFrom(s: MuxState, inputs: seq<Input>): MuxState
  {
    if inputs == [] then s else Step(RunFrom(s, inputs[..|inputs| - 1]), inputs[|inputs| - 1])
  }

  /** The state after a sequence of inputs from the start. */
  function Run(inputs: seq<Input>): MuxState
  {
    RunFrom(Init(), inputs)
  }

  lemma RunSnoc(s: MuxState, inputs: seq<Input>, input: Input)
    ensures RunFrom(s, inputs + [input]) == Step(RunFrom(s, inputs), input)
  {
    assert (inputs + [input])[..|inputs|] == inputs;
  }

  /** A known state, stepped by one more input, is the run of the longer history. */
  lemma RunExtends(inputs: seq<Input>, input: Input, s: MuxState, s': MuxState)
    requires Run(inputs) == s && Step(s, input) == s'
    ensures Run(inputs + [input]) == s'
  {
    RunSnoc(Init(), inputs, input);
  }

  // ---------------------------------------------------------------------
  // Summaries of an input sequence

  /** The command text an input enqueues, if any. */
  function EnqueuedBy(input: Input): seq<string>
  {
    if input.Enqueue? then [input.text] else []
  }

  /** The chunk text an input delivers to the frame buffer, if any. */
  function ReceivedBy(ended: bool, input: Input): seq<string>
  {
    if !ended && input.Receive? && input.chunk.Decoded? then [input.chunk.text] else []
  }

  /** Whether an input is a prompt chunk that reaches the gate. */
  function PromptsBy(ended: bool, input: Input): nat
  {
    if !ended && input.Receive? && input.chunk.Decoded? && IsPrompt(input.chunk.text) then 1 else 0
  }

  /** The texts of all enqueued commands, in enqueue order. */
  function Enqueued(inputs: seq<Input>): seq<string>
  {
    if inputs == [] then [] else Enqueued(inputs[..|inputs| - 1]) + EnqueuedBy(inputs[|inputs| - 1])
  }

  /** Whether the read stream has completed. */
  function Ended(inputs: seq<Input>): bool
  {
    inputs != [] && (Ended(inputs[..|inputs| - 1]) || inputs[|inputs| - 1].StreamEnd?)
  }

  /** The decoded chunk texts received before the stream completed, in arrival order. */
  function Received(inputs: seq<Input>): seq<string>
  {
    if inputs == [] then []
    else
      var init := inputs[..|inputs| - 1];
      Received(init) + ReceivedBy(Ended(init), inputs[|inputs| - 1])
  }

  /** The number of prompt chunks received before the stream completed. */
  function Prompts(inputs: seq<Input>): nat
  {
    if inputs == [] then 0
    else
      var init := inputs[..|inputs| - 1];
      Prompts(init) + PromptsBy(Ended(init), inputs[|inputs| - 1])
  }

  // ---------------------------------------------------------------------
  // The invariant of reachable states

  /**
   * Admission bookkeeping: the commands written so far are the first ones
   * enqueued, in order, and the queue holds the rest; every token ever issued
   * is either still buffered or was spent on exactly one admission; the
   * current command is the one admitted last.
   */
  predicate AdmittedPrefix(queue: seq<Command>, nextId: nat, tokens: nat, current: Option<Command>, writes: seq<string>,
                           enqueued: seq<string>, prompts: nat)
  {
    && nextId == |enqueued|
    && |writes| + |queue| == |enqueued|
    && (forall k :: 0 <= k < |writes| ==> writes[k] == Payload(enqueued[k]))
    && (forall k :: 0 <= k < |queue| ==> queue[k] == Command(|writes| + k, enqueued[|writes| + k]))
    && tokens + |writes| == 1 + prompts
    && current == (if writes == [] then None else Some(Command(|writes| - 1, enqueued[|writes| - 1])))
  }

  predicate Bookkept(s: MuxState, enqueued: seq<string>, prompts: nat)
  {
    AdmittedPrefix(s.queue, s.nextId, s.tokens, s.current, s.writes, enqueued, prompts)
  }

  /** Between inputs `zip` never holds a token and a command at once. */
  predicate Admissions(s: MuxState, enqueued: seq<string>, prompts: nat)
  {
    Bookkept(s, enqueued, prompts) && (s.tokens == 0 || s.queue == [])
  }

  /** Framing is a lossless partition of the received chunks. */
  predicate Framed(s: MuxState, received: seq<string>)
  {
    if s.ended then Concat(s.windows) == received else Concat(s.windows) + s.buffer == received
  }

  /**
   * Dispatch bookkeeping: nothing is delivered before the first admission;
   * from then on every window is delivered, so the delivered frames are the
   * texts of the last windows, in order; each goes to an admitted command and
   * the recipients never go back to an earlier command.
   */
  predicate Delivered(deliveries: seq<Delivery>, windows: seq<seq<string>>, admitted: nat)
  {
    && |deliveries| <= |windows|
    && (admitted == 0 ==> deliveries == [])
    && (forall j :: 0 <= j < |deliveries| ==>
          deliveries[j].response == FrameText(windows[|windows| - |deliveries| + j]))
    && (forall j :: 0 <= j < |deliveries| ==> deliveries[j].id < admitted)
    && (forall i, j :: 0 <= i <= j < |deliveries| ==> deliveries[i].id <= deliveries[j].id)
  }

  predicate Dispatched(s: MuxState)
  {
    Delivered(s.deliveries, s.windows, |s.writes|)
  }

  /** The invariant, over the summaries of the inputs so far. */
  predicate Invariant(s: MuxState, enqueued: seq<string>, received: seq<string>, prompts: nat)
  {
    Admissions(s, enqueued, prompts) && Framed(s, received) && Dispatched(s)
  }

  predicate Reachable(s: MuxState, inputs: seq<Input>)
  {
    Invariant(s, Enqueued(inputs), Received(inputs), Prompts(inputs)) && s.ended == Ended(inputs)
  }

  /** Admission restores the zip invariant when at most one token or one command is in excess. */
  lemma AdmitKeeps(s: MuxState, enqueued: seq<string>, prompts: nat)
    requires Bookkept(s, enqueued, prompts) && (s.tokens <= 1 || |s.queue| <= 1) && Dispatched(s)
    ensures Admissions(Admit(s), enqueued, prompts) && Dispatched(Admit(s))
    ensures Admit(s).windows == s.windows && Admit(s).buffer == s.buffer && Admit(s).ended == s.ended
  {
    if s.tokens > 0 && s.queue != [] {
      var s' := Admit(s);
      var n := |s.writes|;
      assert s.queue[0] == Command(n, enqueued[n]);
      assert |s'.writes| == n + 1 && s'.writes[n] == Payload(enqueued[n]);
      forall k | 0 <= k < |s'.writes| ensures s'.writes[k] == Payload(enqueued[k]) {
        if k < n {
          assert s'.writes[k] == s.writes[k];
        }
      }
      forall k | 0 <= k < |s'.queue| ensures s'.queue[k] == Command(|s'.writes| + k, enqueued[|s'.writes| + k]) {
        assert s'.queue[k] == s.queue[k + 1];
      }
      assert Bookkept(s', enqueued, prompts);
    }
  }

  /** A prompt's token, added to a settled state, leaves at most one token in excess. */
  lemma TokenAdded(s: MuxState, t: MuxState, enqueued: seq<string>, prompts: nat)
    requires Admissions(s, enqueued, prompts)
    requires t.queue == s.queue && t.writes == s.writes && t.nextId == s.nextId && t.current == s.current
    requires t.tokens == s.tokens + 1
    ensures Bookkept(t, enqueued, prompts + 1) && (t.tokens <= 1 || |t.queue| <= 1)
  {
  }

  /** An enqueued command, added to a settled state, leaves at most one command in excess. */
  lemma CommandAdded(s: MuxState, enqueued: seq<string>, prompts: nat, text: string)
    requires Admissions(s, enqueued, prompts)
    ensures var t := s.(queue := s.queue + [Command(s.nextId, text)], nextId := s.nextId + 1);
      Bookkept(t, enqueued + [text], prompts) && (t.tokens <= 1 || |t.queue| <= 1)
  {
    var t := s.(queue := s.queue + [Command(s.nextId, text)], nextId := s.nextId + 1);
    forall k | 0 <= k < |t.writes| ensures t.writes[k] == Payload((enqueued + [text])[k]) {
      assert (enqueued + [text])[k] == enqueued[k];
    }
    forall k | 0 <= k < |t.queue|
      ensures t.queue[k] == Command(|t.writes| + k, (enqueued + [text])[|t.writes| + k])
    {
      if k < |s.queue| {
        assert t.queue[k] == s.queue[k];
      }
    }
  }

  /** Emitting a window keeps the admission and dispatch bookkeeping. */
  lemma DispatchKeeps(s: MuxState, enqueued: seq<string>, prompts: nat, window: seq<string>)
    requires Admissions(s, enqueued, prompts) && Dispatched(s)
    ensures Admissions(Dispatch(s, window), enqueued, prompts) && Dispatched(Dispatch(s, window))
  {
    var s' := Dispatch(s, window);
    assert s'.queue == s.queue && s'.writes == s.writes && s'.tokens == s.tokens;
    assert s'.current == s.current && s'.nextId == s.nextId;
    assert Admissions(s', enqueued, prompts);
    if s.current.None? {
      assert s'.deliveries == s.deliveries == [];
    } else {
      var d := Delivery(s.current.value.id, FrameText(window));
      assert d.id == |s.writes| - 1;
      assert s'.deliveries == s.deliveries + [d];
      DeliveryAppended(s, s', d, window);
    }
  }

  lemma DeliveryAppended(s: MuxState, s': MuxState, d: Delivery, window: seq<string>)
    requires Dispatched(s) && s.writes != [] && d.id == |s.writes| - 1 && d.response == FrameText(window)
    requires s'.writes == s.writes && s'.windows == s.windows + [window] && s'.deliveries == s.deliveries + [d]
    ensures Dispatched(s')
  {
    forall j | 0 <= j < |s'.deliveries|
      ensures s'.deliveries[j].response == FrameText(s'.windows[|s'.windows| - |s'.deliveries| + j])
    {
      if j < |s.deliveries| {
        assert s'.deliveries[j] == s.deliveries[j];
        assert s'.windows[|s'.windows| - |s'.deliveries| + j] == s.windows[|s.windows| - |s.deliveries| + j];
      }
    }
    forall i, j | 0 <= i <= j < |s'.deliveries|
      ensures s'.deliveries[i].id <= s'.deliveries[j].id
    {
      if j < |s.deliveries| {
        assert s'.deliveries[i] == s.deliveries[i] && s'.deliveries[j] == s.deliveries[j];
      } else if i < |s.deliveries| {
        assert s'.deliveries[i] == s.deliveries[i];
      }
    }
    forall j | 0 <= j < |s'.deliveries|
      ensures s'.deliveries[j].id < |s'.writes|
    {
      if j < |s.deliveries| {
        assert s'.deliveries[j] == s.deliveries[j];
      }
    }
  }

  /** Emitting the pending window moves it, whole, from the buffer to the windows. */
  lemma CutKeepsFraming(s: MuxState, received: seq<string>, window: seq<string>)
    requires !s.ended && Framed(s, received)
    ensures Concat(Dispatch(s, s.buffer).windows) + window == received + window
  {
    ConcatAppend(s.windows, [s.buffer]);
    ConcatSingle(s.buffer);
  }

  lemma SummariesSnoc(inputs: seq<Input>, input: Input)
    ensures Enqueued(inputs + [input]) == Enqueued(inputs) + EnqueuedBy(input)
    ensures Ended(inputs + [input]) == (Ended(inputs) || input.StreamEnd?)
    ensures Received(inputs + [input]) == Received(inputs) + ReceivedBy(Ended(inputs), input)
    ensures Prompts(inputs + [input]) == Prompts(inputs) + PromptsBy(Ended(inputs), input)
  {
    assert (inputs + [input])[..|inputs|] == inputs;
  }

  /** The invariant holds after `input`, with the summaries extended by what the input contributes. */
  predicate Kept(s: MuxState, enqueued: seq<string>, received: seq<string>, prompts: nat, input: Input)
  {
    var s' := Step(s, input);
    && Invariant(s', enqueued + EnqueuedBy(input), received + ReceivedBy(s.ended, input), prompts + PromptsBy(s.ended, input))
    && s'.ended == (s.ended || input.StreamEnd?)
  }

  lemma EnqueueKeeps(s: MuxState, enqueued: seq<string>, received: seq<string>, prompts: nat, input: Input)
    requires Invariant(s, enqueued, received, prompts) && input.Enqueue?
    ensures Kept(s, enqueued, received, prompts, input)
  {
    EnqueueKeepsBookkeeping(s, enqueued, prompts, input.text);
    assert received + ReceivedBy(s.ended, input) == received;
  }

  lemma EnqueueKeepsBookkeeping(s: MuxState, enqueued: seq<string>, prompts: nat, text: string)
    requires Admissions(s, enqueued, prompts) && Dispatched(s)
    ensures Admissions(Step(s, Enqueue(text)), enqueued + [text], prompts) && Dispatched(Step(s, Enqueue(text)))
    ensures var s' := Step(s, Enqueue(text)); s'.windows == s.windows && s'.buffer == s.buffer && s'.ended == s.ended
  {
    var s1 := s.(queue := s.queue + [Command(s.nextId, text)], nextId := s.nextId + 1);
    assert Step(s, Enqueue(text)) == Admit(s1);
    CommandAdded(s, enqueued, prompts, text);
    AdmitKeeps(s1, enqueued + [text], prompts);
  }

  lemma PromptKeeps(s: MuxState, enqueued: seq<string>, received: seq<string>, prompts: nat, input: Input)
    requires Invariant(s, enqueued, received, prompts) && !s.ended
    requires input.Receive? && input.chunk.Decoded? && IsPrompt(input.chunk.text)
    ensures Kept(s, enqueued, received, prompts, input)
  {
    PromptKeepsBookkeeping(s, enqueued, prompts, input.chunk.text);
    PromptKeepsFraming(s, received, input.chunk.text);
    assert enqueued + EnqueuedBy(input) == enqueued;
  }

  lemma PromptKeepsBookkeeping(s: MuxState, enqueued: seq<string>, prompts: nat, text: string)
    requires Admissions(s, enqueued, prompts) && Dispatched(s) && !s.ended && IsPrompt(text)
    ensures var s' := Step(s, Receive(Decoded(text)));
      Admissions(s', enqueued, prompts + 1) && Dispatched(s')
  {
    var s0 := Dispatch(s, s.buffer);
    var s1 := s0.(buffer := [text], tokens := s.tokens + 1);
    assert Step(s, Receive(Decoded(text))) == Admit(s1);
    DispatchKeeps(s, enqueued, prompts, s.buffer);
    TokenAdded(s0, s1, enqueued, prompts);
    AdmitKeeps(s1, enqueued, prompts + 1);
  }

  lemma PromptKeepsFraming(s: MuxState, received: seq<string>, text: string)
    requires Framed(s, received) && !s.ended && IsPrompt(text)
    ensures var s' := Step(s, Receive(Decoded(text)));
      Framed(s', received + [text]) && !s'.ended
  {
    var s1 := Dispatch(s, s.buffer).(buffer := [text], tokens := s.tokens + 1);
    assert Step(s, Receive(Decoded(text))) == Admit(s1);
    assert Admit(s1).windows == s1.windows && Admit(s1).buffer == [text] && !Admit(s1).ended;
    CutKeepsFraming(s, received, [text]);
  }

  lemma EndKeeps(s: MuxState, enqueued: seq<string>, received: seq<string>, prompts: nat, input: Input)
    requires Invariant(s, enqueued, received, prompts) && !s.ended && input.StreamEnd?
    ensures Kept(s, enqueued, received, prompts, input)
  {
    DispatchKeeps(s, enqueued, prompts, s.buffer);
    EndKeepsFraming(s, received);
    assert enqueued + EnqueuedBy(input) == enqueued;
    assert received + ReceivedBy(s.ended, input) == received;
  }

  lemma EndKeepsFraming(s: MuxState, received: seq<string>)
    requires Framed(s, received) && !s.ended
    ensures Framed(Step(s, StreamEnd), received) && Step(s, StreamEnd).ended
  {
    assert Step(s, StreamEnd) == Dispatch(s, s.buffer).(ended := true);
    CutKeepsFraming(s, received, []);
    assert received + [] == received;
  }

  lemma TextKeeps(s: MuxState, enqueued: seq<string>, received: seq<string>, prompts: nat, input: Input)
    requires Invariant(s, enqueued, received, prompts) && !s.ended
    requires input.Receive? && input.chunk.Decoded? && !IsPrompt(input.chunk.text)
    ensures Kept(s, enqueued, received, prompts, input)
  {
    var text := input.chunk.text;
    assert Step(s, input) == s.(buffer := s.buffer + [text]);
    assert Concat(s.windows) + (s.buffer + [text]) == Concat(s.windows) + s.buffer + [text];
    assert enqueued + EnqueuedBy(input) == enqueued;
  }

  lemma IgnoredKeeps(s: MuxState, enqueued: seq<string>, received: seq<string>, prompts: nat, input: Input)
    requires Invariant(s, enqueued, received, prompts)
    requires input == Receive(Undecodable) || (s.ended && !input.Enqueue?)
    ensures Kept(s, enqueued, received, prompts, input)
  {
    assert Step(s, input) == s;
    assert enqueued + EnqueuedBy(input) == enqueued;
    assert received + ReceivedBy(s.ended, input) == received;
  }

  lemma StepKeeps(s: MuxState, enqueued: seq<string>, received: seq<string>, prompts: nat, input: Input)
    requires Invariant(s, enqueued, received, prompts)
    ensures Kept(s, enqueued, received, prompts, input)
  {
    if input.Enqueue? {
      EnqueueKeeps(s, enqueued, received, prompts, input);
    } else if input == Receive(Undecodable) || s.ended {
      IgnoredKeeps(s, enqueued, received, prompts, input);
    } else if input.StreamEnd? {
      EndKeeps(s, enqueued, received, prompts, input);
    } else if IsPrompt(input.chunk.text) {
      PromptKeeps(s, enqueued, received, prompts, input);
    } else {
      TextKeeps(s, enqueued, received, prompts, input);
    }
  }

  /** Every state reached from the start satisfies the invariant. */
  lemma {:induction false} RunReachable(inputs: seq<Input>)
    ensures Reachable(Run(inputs), inputs)
    decreases |inputs|
  {
    if inputs != [] {
      var init, last := inputs[..|inputs| - 1], inputs[|inputs| - 1];
      RunReachable(init);
      StepKeeps(Run(init), Enqueued(init), Received(init), Prompts(init), last);
      assert Run(inputs) == Step(Run(init), last);
    }
  }

  // ---------------------------------------------------------------------
  // Admission: the gate tokens and FIFO order

  function Min(a: int, b: int): int
  {
    if a <= b then a else b
  }

  /**
   * At most one more command is ever admitted than prompts were received:
   * every admission spends a token, and tokens come only from the start and
   * from prompt chunks.  Nothing ever takes a token back.
   */
  lemma AdmissionBound(inputs: seq<Input>)
    ensures |Run(inputs).writes| <= 1 + Prompts(inputs)
    ensures Run(inputs).tokens == 1 + Prompts(inputs) - |Run(inputs).writes|
  {
    RunReachable(inputs);
  }

  /** `zip` admits as many commands as it can pair: the lesser of commands enqueued and tokens issued. */
  lemma AdmissionCount(inputs: seq<Input>)
    ensures |Run(inputs).writes| == Min(|Enqueued(inputs)|, 1 + Prompts(inputs))
  {
    var s := Run(inputs);
    assert && s.tokens + |s.writes| == 1 + Prompts(inputs)
           && |s.writes| + |s.queue| == |Enqueued(inputs)|
           && (s.tokens == 0 || s.queue == [])
    by {
      RunReachable(inputs);
    }
  }

  /** The admission part of the invariant, on its own. */
  lemma RunAdmissions(inputs: seq<Input>)
    ensures Admissions(Run(inputs), Enqueued(inputs), Prompts(inputs))
  {
    RunReachable(inputs);
  }

  /**
   * Commands are admitted in exact enqueue order: the k-th write carries the
   * k-th enqueued command followed by a carriage return, the queue holds the
   * rest in order, and the current command is the last one admitted.
   */
  lemma FifoAdmission(inputs: seq<Input>)
    ensures var s, enqueued := Run(inputs), Enqueued(inputs);
      && |s.writes| + |s.queue| == |enqueued|
      && (forall k :: 0 <= k < |s.writes| ==> s.writes[k] == enqueued[k] + "\r")
      && (forall k :: 0 <= k < |s.queue| ==> s.queue[k] == Command(|s.writes| + k, enqueued[|s.writes| + k]))
      && s.current == (if s.writes == [] then None else Some(Command(|s.writes| - 1, enqueued[|s.writes| - 1])))
  {
    var s, enqueued := Run(inputs), Enqueued(inputs);
    RunAdmissions(inputs);
    forall k | 0 <= k < |s.writes|
      ensures s.writes[k] == enqueued[k] + "\r"
    {
      assert s.writes[k] == Payload(enqueued[k]);
    }
  }

  /** A chunk that does not decode changes nothing: it adds no text and is not a prompt. */
  lemma UndecodableIgnored(inputs: seq<Input>)
    ensures Run(inputs + [Receive(Undecodable)]) == Run(inputs)
    ensures Received(inputs + [Receive(Undecodable)]) == Received(inputs)
    ensures Prompts(inputs + [Receive(Undecodable)]) == Prompts(inputs)
  {
    RunSnoc(Init(), inputs, Receive(Undecodable));
    SummariesSnoc(inputs, Receive(Undecodable));
  }

  /** A decoded chunk adds a token exactly when its text ends with `>` (and the stream is still open). */
  lemma PromptAddsToken(inputs: seq<Input>, text: string)
    requires !Ended(inputs)
    ensures Prompts(inputs + [Receive(Decoded(text))]) == Prompts(inputs) + (if IsPrompt(text) then 1 else 0)
    ensures Received(inputs + [Receive(Decoded(text))]) == Received(inputs) + [text]
  {
    SummariesSnoc(inputs, Receive(Decoded(text)));
  }

  // ---------------------------------------------------------------------
  // Framing and dispatch

  /**
   * Nothing received is lost or duplicated: the emitted windows followed by
   * the pending buffer (flushed into the last window once the stream has
   * ended) are the decoded chunks in arrival order, and so the frame texts
   * concatenated are the text of every chunk that does not end with `>`.
   */
  lemma LosslessFraming(inputs: seq<Input>)
    ensures var s := Run(inputs);
      && Concat(s.windows) + (if s.ended then [] else s.buffer) == Received(inputs)
      && Concat(FrameTexts(s.windows)) + (if s.ended then "" else FrameText(s.buffer)) == FrameText(Received(inputs))
  {
    var s := Run(inputs);
    RunReachable(inputs);
    FrameTextsConcat(s.windows);
    if !s.ended {
      FrameTextAppend(Concat(s.windows), s.buffer);
    } else {
      assert Concat(s.windows) + [] == Concat(s.windows);
    }
  }

  lemma CurrentIsLastAdmitted(inputs: seq<Input>)
    ensures var s := Run(inputs);
      && s.ended == Ended(inputs)
      && (s.current.Some? <==> s.writes != [])
      && (s.current.Some? ==> s.current.value.id == |s.writes| - 1)
  {
    RunReachable(inputs);
  }

  /**
   * Every frame goes to the most recently admitted command: a prompt chunk
   * emits the pending window, and its frame text is delivered to the command
   * admitted last, or to nobody when no command has been admitted yet.
   */
  lemma DispatchToLastAdmitted(inputs: seq<Input>, text: string)
    requires !Ended(inputs) && IsPrompt(text)
    ensures var s, s' := Run(inputs), Run(inputs + [Receive(Decoded(text))]);
      && s'.windows == s.windows + [s.buffer]
      && s'.deliveries == s.deliveries + (if s.writes == [] then [] else [Delivery(|s.writes| - 1, FrameText(s.buffer))])
  {
    CurrentIsLastAdmitted(inputs);
    RunSnoc(Init(), inputs, Receive(Decoded(text)));
  }

  /** When the read stream completes, the pending window is flushed and delivered like any other frame. */
  lemma FlushOnStreamEnd(inputs: seq<Input>)
    requires !Ended(inputs)
    ensures var s, s' := Run(inputs), Run(inputs + [StreamEnd]);
      && s'.ended && s'.windows == s.windows + [s.buffer]
      && s'.deliveries == s.deliveries + (if s.writes == [] then [] else [Delivery(|s.writes| - 1, FrameText(s.buffer))])
  {
    CurrentIsLastAdmitted(inputs);
    RunSnoc(Init(), inputs, StreamEnd);
  }

  /**
   * Deliveries follow admissions: none before the first admission; each goes
   * to an admitted command, never to an earlier one than the delivery before
   * it; and the delivered texts are those of the last windows, in order.
   */
  lemma DeliveriesFollowAdmissions(inputs: seq<Input>)
    ensures var s := Run(inputs);
      && (s.writes == [] ==> s.deliveries == [])
      && |s.deliveries| <= |s.windows|
      && (forall j :: 0 <= j < |s.deliveries| ==> s.deliveries[j].id < |s.writes|)
      && (forall i, j :: 0 <= i <= j < |s.deliveries| ==> s.deliveries[i].id <= s.deliveries[j].id)
      && (forall j :: 0 <= j < |s.deliveries| ==>
            s.deliveries[j].response == FrameText(s.windows[|s.windows| - |s.deliveries| + j]))
  {
    RunReachable(inputs);
  }

  /** The current command is never reset: once a command has been admitted, one stays current. */
  lemma CurrentNeverCleared(s: MuxState, input: Input)
    requires s.current.Some?
    ensures Step(s, input).current.Some?
  {
  }

  /**
   * With nothing queued, a further prompt admits nobody, and the frame goes
   * to the same command's completion again.
   */
  lemma RepeatedDelivery(s: MuxState, text: string)
    requires s.current.Some? && s.queue == [] && !s.ended && IsPrompt(text)
    ensures Step(s, Receive(Decoded(text))).current == s.current
    ensures Step(s, Receive(Decoded(text))).deliveries ==
      s.deliveries + [Delivery(s.current.value.id, FrameText(s.buffer))]
  {
  }

  // ---------------------------------------------------------------------
  // Per-command results

  /** Delivery `j` is the first one to command `id`. */
  predicate FirstFor(deliveries: seq<Delivery>, j: nat, id: nat)
  {
    && j < |deliveries| && deliveries[j].id == id
    && forall i :: 0 <= i < j ==> deliveries[i].id != id
  }

  /**
   * The value a command's `Single` succeeds with: the text of the first frame
   * delivered to it.  Later calls of the same completion are ignored by the
   * `Single`, which has already succeeded; there is no failure result.
   */
  function Response(deliveries: seq<Delivery>, id: nat): (r: Option<string>)
    ensures r.None? <==> forall j :: 0 <= j < |deliveries| ==> deliveries[j].id != id
  {
    if deliveries == [] then None
    else if deliveries[0].id == id then Some(deliveries[0].response)
    else Response(deliveries[1..], id)
  }

  /** The result is the text of the first delivery to that command. */
  lemma {:induction false} ResponseIsFirst(deliveries: seq<Delivery>, id: nat)
    requires Response(deliveries, id).Some?
    ensures exists j: nat :: FirstFor(deliveries, j, id) && deliveries[j].response == Response(deliveries, id).value
    decreases |deliveries|
  {
    if deliveries[0].id == id {
      assert FirstFor(deliveries, 0, id);
    } else {
      ResponseIsFirst(deliveries[1..], id);
      var j: nat :| FirstFor(deliveries[1..], j, id) && deliveries[1..][j].response == Response(deliveries[1..], id).value;
      assert FirstFor(deliveries, j + 1, id);
    }
  }

  /** A result, once there, is never replaced by later deliveries. */
  lemma {:induction false} ResponseSettled(deliveries: seq<Delivery>, more: seq<Delivery>, id: nat)
    requires Response(deliveries, id).Some?
    ensures Response(deliveries + more, id) == Response(deliveries, id)
    decreases |deliveries|
  {
    if deliveries[0].id != id {
      assert (deliveries + more)[1..] == deliveries[1..] + more;
      ResponseSettled(deliveries[1..], more, id);
    }
  }

  lemma {:induction false} RunFromAppend(s: MuxState, inputs: seq<Input>, later: seq<Input>)
    ensures RunFrom(s, inputs + later) == RunFrom(RunFrom(s, inputs), later)
    decreases |later|
  {
    if later == [] {
      assert inputs + later == inputs;
    } else {
      var init := later[..|later| - 1];
      assert (inputs + later)[..|inputs + later| - 1] == inputs + init;
      assert (inputs + later)[|inputs + later| - 1] == later[|later| - 1];
      RunFromAppend(s, inputs, init);
    }
  }

  /** Deliveries are only ever appended to. */
  lemma {:induction false} DeliveriesGrow(s: MuxState, later: seq<Input>)
    ensures s.deliveries <= RunFrom(s, later).deliveries
    decreases |later|
  {
    if later != [] {
      DeliveriesGrow(s, later[..|later| - 1]);
    }
  }

  /** Each command resolves at most once: later inputs never change a result that is there. */
  lemma ResolvedOnce(inputs: seq<Input>, later: seq<Input>, id: nat)
    requires Response(Run(inputs).deliveries, id).Some?
    ensures Response(Run(inputs + later).deliveries, id) == Response(Run(inputs).deliveries, id)
  {
    var d := Run(inputs).deliveries;
    RunFromAppend(Init(), inputs, later);
    DeliveriesGrow(Run(inputs), later);
    var d' := Run(inputs + later).deliveries;
    assert d' == d + d'[|d|..];
    ResponseSettled(d, d'[|d|..], id);
  }

  // ---------------------------------------------------------------------
  // Request/response pairing

  /** An input carrying a chunk that ends with `>`. */
  predicate IsPromptInput(input: Input)
  {
    input.Receive? && input.chunk.Decoded? && IsPrompt(input.chunk.text)
  }

  /**
   * The adapter prompts only in answer to a command: every prompt on an open
   * stream arrives while some written command has not yet been followed by a
   * prompt, that is, while the writes outnumber the prompts received so far.
   */
  predicate Lockstep(inputs: seq<Input>)
  {
    if inputs == [] then true
    else
      var init, last := inputs[..|inputs| - 1], inputs[|inputs| - 1];
      && Lockstep(init)
      && (IsPromptInput(last) && !Ended(init) ==> Prompts(init) + 1 <= |Run(init).writes|)
  }

  /**
   * The first `prompts` frames went to commands 0, 1, ..., in order, one
   * each; while the stream is open there has been no other delivery and no
   * other window.
   */
  predicate Paired(s: MuxState, prompts: nat)
  {
    && prompts <= |s.deliveries| && prompts <= |s.windows|
    && (!s.ended ==> |s.deliveries| == prompts && |s.windows| == prompts)
    && forall j :: 0 <= j < prompts ==> s.deliveries[j] == Delivery(j, FrameText(s.windows[j]))
  }

  /** One input keeps the pairing when a prompt finds command `prompts` current. */
  lemma PairedStep(s: MuxState, prompts: nat, input: Input)
    requires Paired(s, prompts)
    requires IsPromptInput(input) && !s.ended ==> s.current.Some? && s.current.value.id == prompts
    ensures Paired(Step(s, input), prompts + PromptsBy(s.ended, input))
  {
    if IsPromptInput(input) && !s.ended {
      var s' := Step(s, input);
      assert s'.windows == s.windows + [s.buffer];
      assert s'.deliveries == s.deliveries + [Delivery(prompts, FrameText(s.buffer))];
    }
  }

  /**
   * When the adapter prompts only in answer to a command, the k-th frame goes
   * to the k-th command admitted, and to no other: the pairing the
   * communicator exists for.
   */
  lemma {:induction false} LockstepPairs(inputs: seq<Input>)
    requires Lockstep(inputs)
    ensures Paired(Run(inputs), Prompts(inputs))
    decreases |inputs|
  {
    if inputs != [] {
      var init, last := inputs[..|inputs| - 1], inputs[|inputs| - 1];
      assert inputs == init + [last];
      LockstepPairs(init);
      RunSnoc(Init(), init, last);
      SummariesSnoc(init, last);
      CurrentIsLastAdmitted(init);
      AdmissionBound(init);
      PairedStep(Run(init), Prompts(init), last);
    }
  }

  /** In a list whose i-th delivery goes to command `base + i`, each of those commands' result is its own delivery. */
  lemma {:induction false} ResponseOfPaired(deliveries: seq<Delivery>, base: nat, id: nat)
    requires forall i :: 0 <= i < |deliveries| ==> deliveries[i].id == base + i
    requires base <= id < base + |deliveries|
    ensures Response(deliveries, id) == Some(deliveries[id - base].response)
    decreases |deliveries|
  {
    if deliveries[0].id != id {
      ResponseOfPaired(deliveries[1..], base + 1, id);
    }
  }

  /** In a paired state, command j (among the first `prompts`) resolves with the text of the j-th window. */
  lemma PairedResponse(s: MuxState, prompts: nat, j: nat)
    requires Paired(s, prompts) && j < prompts
    ensures j < |s.windows| && Response(s.deliveries, j) == Some(FrameText(s.windows[j]))
  {
    var paired, later := s.deliveries[..prompts], s.deliveries[prompts..];
    assert paired + later == s.deliveries;
    ResponseOfPaired(paired, 0, j);
    ResponseSettled(paired, later, j);
  }

  /**
   * When the adapter prompts only in answer to a command, every command
   * answered by a prompt resolves with the text of its own frame: command j
   * with that of the j-th window.
   */
  lemma PairedResponses(inputs: seq<Input>)
    requires Lockstep(inputs)
    ensures forall j :: 0 <= j < Prompts(inputs) ==>
      && j < |Run(inputs).windows|
      && Response(Run(inputs).deliveries, j) == Some(FrameText(Run(inputs).windows[j]))
  {
    LockstepPairs(inputs);
    forall j | 0 <= j < Prompts(inputs)
      ensures j < |Run(inputs).windows|
      ensures Response(Run(inputs).deliveries, j) == Some(FrameText(Run(inputs).windows[j]))
    {
      PairedResponse(Run(inputs), Prompts(inputs), j);
    }
  }

  // ---------------------------------------------------------------------
  // Batches: `send(commands:)`

  /** The inputs `send(commands:)` produces: one enqueue per command, in array order. */
  function EnqueueAll(commands: seq<string>): (r: seq<Input>)
    ensures |r| == |commands|
    ensures forall i :: 0 <= i < |commands| ==> r[i] == Enqueue(commands[i])
  {
    seq(|commands|, i requires 0 <= i < |commands| => Enqueue(commands[i]))
  }

  lemma EnqueueAllSnoc(s: MuxState, commands: seq<string>, i: nat)
    requires i < |commands|
    ensures RunFrom(s, EnqueueAll(commands[..i + 1])) == Step(RunFrom(s, EnqueueAll(commands[..i])), Enqueue(commands[i]))
  {
    assert EnqueueAll(commands[..i + 1]) == EnqueueAll(commands[..i]) + [Enqueue(commands[i])];
    RunSnoc(s, EnqueueAll(commands[..i]), Enqueue(commands[i]));
  }

  lemma EnqueueAllExtend(before: seq<Input>, commands: seq<string>, i: nat)
    requires i < |commands|
    ensures before + EnqueueAll(commands[..i]) + [Enqueue(commands[i])] == before + EnqueueAll(commands[..i + 1])
  {
    assert EnqueueAll(commands[..i + 1]) == EnqueueAll(commands[..i]) + [Enqueue(commands[i])];
  }

  /** A batch run after a history is the run of the history followed by the batch. */
  lemma RunBatch(before: seq<Input>, commands: seq<string>)
    ensures Run(before + EnqueueAll(commands)) == RunFrom(Run(before), EnqueueAll(commands))
  {
    RunFromAppend(Init(), before, EnqueueAll(commands));
  }

  /** The batch's `Single<Void>` succeeds once every command in it has a result. */
  predicate BatchDone(deliveries: seq<Delivery>, ids: seq<nat>)
  {
    forall i :: 0 <= i < |ids| ==> Response(deliveries, ids[i]).Some?
  }

  lemma {:induction false} EnqueuedAppend(inputs: seq<Input>, later: seq<Input>)
    ensures Enqueued(inputs + later) == Enqueued(inputs) + Enqueued(later)
    decreases |later|
  {
    if later == [] {
      assert inputs + later == inputs;
    } else {
      var init := later[..|later| - 1];
      assert (inputs + later)[..|inputs + later| - 1] == inputs + init;
      assert (inputs + later)[|inputs + later| - 1] == later[|later| - 1];
      EnqueuedAppend(inputs, init);
    }
  }

  lemma {:induction false} EnqueuedAll(commands: seq<string>)
    ensures Enqueued(EnqueueAll(commands)) == commands
    decreases |commands|
  {
    if commands != [] {
      var init := commands[..|commands| - 1];
      assert EnqueueAll(commands)[..|commands| - 1] == EnqueueAll(init);
      EnqueuedAll(init);
    }
  }

  /**
   * A batch's commands get consecutive ids, following those of the commands
   * enqueued before it: the command at position k of the batch is the one
   * enqueued under id n + k, n being the first id of the batch.
   */
  lemma BatchIds(inputs: seq<Input>, commands: seq<string>)
    ensures Run(inputs + EnqueueAll(commands)).nextId == Run(inputs).nextId + |commands|
    ensures forall k :: 0 <= k < |commands| ==>
      && Run(inputs).nextId + k < |Enqueued(inputs + EnqueueAll(commands))|
      && Enqueued(inputs + EnqueueAll(commands))[Run(inputs).nextId + k] == commands[k]
  {
    var batch := inputs + EnqueueAll(commands);
    assert Enqueued(batch) == Enqueued(inputs) + commands by {
      EnqueuedAppend(inputs, EnqueueAll(commands));
      EnqueuedAll(commands);
    }
    assert Run(inputs).nextId == |Enqueued(inputs)| by {
      RunReachable(inputs);
    }
    assert Run(batch).nextId == |Enqueued(batch)| by {
      RunReachable(batch);
    }
  }

  /**
   * A batch is admitted in array order, whatever is enqueued or received
   * afterwards: the command at position k of the batch is written as the
   * (n + k)-th write, n being the number of commands enqueued before the
   * batch.
   */
  lemma BatchInOrder(inputs: seq<Input>, commands: seq<string>, later: seq<Input>)
    ensures var n, s := |Enqueued(inputs)|, Run(inputs + EnqueueAll(commands) + later);
      forall k :: 0 <= k < |commands| && n + k < |s.writes| ==> s.writes[n + k] == commands[k] + "\r"
  {
    var all := inputs + EnqueueAll(commands) + later;
    BatchEnqueued(inputs, commands, later);
    WritesAreEnqueued(all);
    WritesOfBatch(Run(all).writes, Enqueued(inputs), commands, Enqueued(later));
  }

  lemma BatchEnqueued(inputs: seq<Input>, commands: seq<string>, later: seq<Input>)
    ensures Enqueued(inputs + EnqueueAll(commands) + later) == Enqueued(inputs) + commands + Enqueued(later)
  {
    EnqueuedAppend(inputs, EnqueueAll(commands));
    EnqueuedAll(commands);
    EnqueuedAppend(inputs + EnqueueAll(commands), later);
  }

  lemma WritesAreEnqueued(inputs: seq<Input>)
    ensures |Run(inputs).writes| <= |Enqueued(inputs)|
    ensures forall k :: 0 <= k < |Run(inputs).writes| ==> Run(inputs).writes[k] == Enqueued(inputs)[k] + "\r"
  {
    RunReachable(inputs);
  }

  lemma WritesOfBatch(writes: seq<string>, before: seq<string>, commands: seq<string>, after: seq<string>)
    requires |writes| <= |before + commands + after|
    requires forall k :: 0 <= k < |writes| ==> writes[k] == (before + commands + after)[k] + "\r"
    ensures forall k :: 0 <= k < |commands| && |before| + k < |writes| ==> writes[|before| + k] == commands[k] + "\r"
  {
    forall k | 0 <= k < |commands| && |before| + k < |writes|
      ensures writes[|before| + k] == commands[k] + "\r"
    {
      assert (before + commands + after)[|before| + k] == commands[k];
    }
  }

  /** Once a batch is done it stays done: its `Single<Void>` succeeds once. */
  lemma BatchSettled(inputs: seq<Input>, later: seq<Input>, ids: seq<nat>)
    requires BatchDone(Run(inputs).deliveries, ids)
    ensures BatchDone(Run(inputs + later).deliveries, ids)
  {
    forall i | 0 <= i < |ids|
      ensures Response(Run(inputs + later).deliveries, ids[i]).Some?
    {
      ResolvedOnce(inputs, later, ids[i]);
    }
  }
}

=== FILE: observable_buffer.dfy ===
/**
 * The boundary-delimited accumulator `Observable.buffer(_ boundary:)`
 * (OBD2Meter/Classes/Observable+Util.swift).  Every `next` of the source is
 * appended to a pending buffer; every `next` of the boundary emits the pending
 * buffer and empties it; completion of the source flushes the pending buffer
 * and completes; an error of the source is forwarded and the pending buffer is
 * discarded.  Terminal events of the boundary are ignored.
 */
module ObservableBuffer {

  /** An Rx event as a subscriber receives it. */
  datatype Event<T> = Next(element: T) | Completed | Error

  /** The concatenation of a sequence of batches, in order. */
  function Concat<E>(batches: seq<seq<E>>): seq<E>
  {
    if batches == [] then [] else Concat(batches[..|batches| - 1]) + batches[|batches| - 1]
  }

  /** The batches carried by the `next` events of a stream of emissions. */
  function Batches<E>(out: seq<Event<seq<E>>>): (r: seq<seq<E>>)
    ensures |r| <= |out|
  {
    if out == [] then []
    else
      var last := out[|out| - 1];
      Batches(out[..|out| - 1]) + (if last.Next? then [last.element] else [])
  }

  lemma {:induction false} ConcatAppend<E>(a: seq<seq<E>>, b: seq<seq<E>>)
    ensures Concat(a + b) == Concat(a) + Concat(b)
    decreases |b|
  {
    if b == [] {
      assert a + b == a;
    } else {
      var b', last := b[..|b| - 1], b[|b| - 1];
      assert (a + b)[..|a + b| - 1] == a + b';
      assert (a + b)[|a + b| - 1] == last;
      assert Concat(a + b) == Concat(a + b') + last;
      ConcatAppend(a, b');
      assert Concat(b) == Concat(b') + last;
    }
  }

  lemma ConcatSingle<E>(batch: seq<E>)
    ensures Concat([batch]) == batch
  {
    assert [batch][..0] == [];
  }

  lemma BatchesAppend<E>(out: seq<Event<seq<E>>>, ev: Event<seq<E>>)
    ensures Batches(out + [ev]) == Batches(out) + (if ev.Next? then [ev.element] else [])
  {
    assert (out + [ev])[..|out|] == out;
  }

  /**
   * The state kept by one subscription to `source.buffer(boundary)`: the
   * pending `buffer` and whether the downstream observer has been stopped by a
   * terminal event (after which Rx disposes both subscriptions, so no further
   * event reaches the handlers).  `received` and `output` record the history:
   * the source elements taken in and the events sent downstream; `batches`
   * are the batches those events carried.
   */
  class BoundaryBuffer<E> {
    var buffer: seq<E>
    var stopped: bool
    ghost var received: seq<E>
    ghost var output: seq<Event<seq<E>>>
    ghost var batches: seq<seq<E>>

    /**
     * Nothing is lost or duplicated: while running, the emitted batches
     * followed by the pending buffer are exactly the source elements; after
     * completion the emitted batches alone are; after an error the emitted
     * batches are a prefix of them and the pending buffer is gone.  Only the
     * last event sent downstream may be terminal.
     */
    ghost predicate Valid()
      reads this
    {
      && batches == Batches(output)
      && (forall i :: 0 <= i < |output| - 1 ==> output[i].Next?)
      && (stopped <==> (output != [] && !output[|output| - 1].Next?))
      && (!stopped ==> Concat(batches) + buffer == received)
      && (stopped && output[|output| - 1].Completed? ==> Concat(batches) == received)
      && (stopped && output[|output| - 1].Error? ==> Concat(batches) <= received && buffer == [])
    }

    constructor ()
      ensures Valid()
      ensures buffer == [] && !stopped && received == [] && output == [] && batches == []
    {
      buffer := [];
      stopped := false;
      received := [];
      output := [];
      batches := [];
    }

    /**
     * The boundary's handler (Observable+Util.swift:14-23): a `next` emits
     * the pending buffer and empties it; `completed` and `error` do nothing.
     */
    method OnBoundary<U>(ev: Event<U>) returns (emitted: seq<Event<seq<E>>>)
      requires Valid()
      modifies this
      ensures Valid()
      ensures output == old(output) + emitted
      ensures received == old(received) && stopped == old(stopped)
      ensures !old(stopped) && ev.Next? ==>
        emitted == [Next(old(buffer))] && buffer == [] && batches == old(batches) + [old(buffer)]
      ensures old(stopped) || !ev.Next? ==>
        emitted == [] && buffer == old(buffer) && output == old(output) && batches == old(batches)
    {
      emitted := [];
      if !stopped && ev.Next? {
        emitted := Emit();
      }
    }

    /** A `next` of the boundary while running: the pending buffer goes downstream as one batch. */
    method Emit() returns (emitted: seq<Event<seq<E>>>)
      requires Valid() && !stopped
      modifies this
      ensures Valid() && !stopped
      ensures emitted == [Next(old(buffer))] && output == old(output) + emitted
      ensures batches == old(batches) + [old(buffer)]
      ensures buffer == [] && received == old(received)
    {
      emitted := [Next(buffer)];
      assert Batches(output + emitted) == batches + [buffer] by {
        BatchesAppend(output, Next(buffer));
      }
      assert Concat(batches + [buffer]) == Concat(batches) + buffer by {
        ConcatAppend(batches, [buffer]);
        ConcatSingle(buffer);
      }
      output := output + emitted;
      batches := batches + [buffer];
      buffer := [];
    }

    /**
     * The source's handler (Observable+Util.swift:25-37): a `next` is
     * appended to the pending buffer; `completed` emits the pending buffer
     * (even when empty) and then completes; `error` is forwarded and the
     * pending buffer is discarded without being emitted.
     */
    method OnSource(ev: Event<E>) returns (emitted: seq<Event<seq<E>>>)
      requires Valid()
      modifies this
      ensures Valid()
      ensures output == old(output) + emitted
      ensures old(stopped) ==> emitted == [] && unchanged(this)
      ensures !old(stopped) && ev.Next? ==>
        && emitted == [] && !stopped && output == old(output) && batches == old(batches)
        && buffer == old(buffer) + [ev.element] && received == old(received) + [ev.element]
      ensures !old(stopped) && ev.Completed? ==>
        && emitted == [Next(old(buffer)), Completed] && stopped && batches == old(batches) + [old(buffer)]
        && buffer == old(buffer) && received == old(received)
      ensures !old(stopped) && ev.Error? ==>
        && emitted == [Error] && stopped && batches == old(batches)
        && buffer == [] && received == old(received)
    {
      emitted := [];
      if !stopped {
        match ev
        case Next(element) =>
          Take(element);
        case Completed =>
          emitted := Finish();
        case Error =>
          emitted := Fail();
      }
    }

    /** A `next` of the source while running: the element joins the pending buffer. */
    method Take(element: E)
      requires Valid() && !stopped
      modifies this
      ensures Valid() && !stopped && output == old(output) && batches == old(batches)
      ensures buffer == old(buffer) + [element] && received == old(received) + [element]
    {
      buffer := buffer + [element];
      received := received + [element];
    }

    /** The source completes while running: the pending buffer is emitted, then completion. */
    method Finish() returns (emitted: seq<Event<seq<E>>>)
      requires Valid() && !stopped
      modifies this
      ensures Valid() && stopped
      ensures emitted == [Next(old(buffer)), Completed] && output == old(output) + emitted
      ensures batches == old(batches) + [old(buffer)]
      ensures buffer == old(buffer) && received == old(received)
    {
      emitted := [Next(buffer), Completed];
      var flushed := output + [Next(buffer)];
      assert Batches(flushed) == batches + [buffer] by {
        BatchesAppend(output, Next(buffer));
      }
      assert Batches(flushed + [Completed]) == Batches(flushed) by {
        BatchesAppend(flushed, Completed);
      }
      assert Concat(batches + [buffer]) == received by {
        ConcatAppend(batches, [buffer]);
        ConcatSingle(buffer);
      }
      assert forall i :: 0 <= i < |flushed| ==> flushed[i].Next?;
      output := flushed + [Completed];
      batches := batches + [buffer];
      stopped := true;
    }

    /** The source fails while running: the error is forwarded and the pending buffer dropped. */
    method Fail() returns (emitted: seq<Event<seq<E>>>)
      requires Valid() && !stopped
      modifies this
      ensures Valid() && stopped
      ensures emitted == [Error] && output == old(output) + emitted
      ensures batches == old(batches) && buffer == [] && received == old(received)
    {
      emitted := [Error];
      BatchesAppend(output, Error);
      assert Batches(output + [Error]) == batches;
      var flushed := Concat(batches);
      assert flushed + buffer == received;
      assert flushed <= flushed + buffer;
      output := output + [Error];
      buffer := [];
      stopped := true;
    }
  }
}

=== FILE: scenarios.dfy ===
/**
 * Concrete runs of the multiplexer, with the meter's speed and engine-speed
 * commands (OBD2Meter/Classes/ViewModel.swift:41-42) and typical adapter
 * responses to them.  Each run is walked one input at a time: `<Name>At(k)`
 * states the state after its first k inputs.
 */
module Scenarios {
  import opened Wrappers
  import opened Framing
  import opened Multiplexer

  const Speed := "21 0D 01"
  const Rpm := "21 0C 01"

  /** Running one more input from a known state. */
  lemma RunNext(inputs: seq<Input>, k: nat, s: MuxState, s': MuxState)
    requires k < |inputs| && Run(inputs[..k]) == s && Step(s, inputs[k]) == s'
    ensures Run(inputs[..k + 1]) == s'
  {
    RunSnoc(Init(), inputs[..k], inputs[k]);
    assert inputs[..k] + [inputs[k]] == inputs[..k + 1];
  }

  /** A chunk of its own holding only a prompt, followed by a response, frames to the response. */
  lemma PromptThenText(text: string)
    requires !IsPrompt(text)
    ensures FrameText([">", text]) == text
  {
    FrameTextAppend([">"], [text]);
    FrameTextSingle(">");
    FrameTextSingle(text);
  }

  // Two commands enqueued before either is answered.

  const TwoInputs := [Enqueue(Speed), Enqueue(Rpm),
                      Receive(Decoded("41 0D 32")), Receive(Decoded(">")),
                      Receive(Decoded("41 0C 1F40")), Receive(Decoded(">"))]
  const TwoWrites := [Speed + "\r", Rpm + "\r"]
  const TwoFirst := Delivery(0, "41 0D 32")
  const TwoSecond := Delivery(1, "41 0C 1F40")

  lemma TwoAt1()
    ensures Run(TwoInputs[..1]) == MuxState([], 1, 0, Some(Command(0, Speed)), [], [], [], TwoWrites[..1], false)
  {
    assert TwoInputs[..0] == [];
    RunNext(TwoInputs, 0, Init(), MuxState([], 1, 0, Some(Command(0, Speed)), [], [], [], TwoWrites[..1], false));
  }

  lemma TwoAt2()
    ensures Run(TwoInputs[..2]) == MuxState([Command(1, Rpm)], 2, 0, Some(Command(0, Speed)), [], [], [], TwoWrites[..1], false)
  {
    TwoAt1();
    RunNext(TwoInputs, 1, MuxState([], 1, 0, Some(Command(0, Speed)), [], [], [], TwoWrites[..1], false),
      MuxState([Command(1, Rpm)], 2, 0, Some(Command(0, Speed)), [], [], [], TwoWrites[..1], false));
  }

  lemma TwoAt3()
    ensures Run(TwoInputs[..3]) == MuxState([Command(1, Rpm)], 2, 0, Some(Command(0, Speed)), ["41 0D 32"], [], [], TwoWrites[..1], false)
  {
    TwoAt2();
    RunNext(TwoInputs, 2, MuxState([Command(1, Rpm)], 2, 0, Some(Command(0, Speed)), [], [], [], TwoWrites[..1], false),
      MuxState([Command(1, Rpm)], 2, 0, Some(Command(0, Speed)), ["41 0D 32"], [], [], TwoWrites[..1], false));
  }

  lemma TwoAt4()
    ensures Run(TwoInputs[..4]) == MuxState([], 2, 0, Some(Command(1, Rpm)), [">"], [["41 0D 32"]], [TwoFirst], TwoWrites, false)
  {
    TwoAt3();
    FrameTextSingle("41 0D 32");
    RunNext(TwoInputs, 3, MuxState([Command(1, Rpm)], 2, 0, Some(Command(0, Speed)), ["41 0D 32"], [], [], TwoWrites[..1], false),
      MuxState([], 2, 0, Some(Command(1, Rpm)), [">"], [["41 0D 32"]], [TwoFirst], TwoWrites, false));
  }

  lemma TwoAt5()
    ensures Run(TwoInputs[..5]) == MuxState([], 2, 0, Some(Command(1, Rpm)), [">", "41 0C 1F40"], [["41 0D 32"]], [TwoFirst], TwoWrites, false)
  {
    TwoAt4();
    RunNext(TwoInputs, 4, MuxState([], 2, 0, Some(Command(1, Rpm)), [">"], [["41 0D 32"]], [TwoFirst], TwoWrites, false),
      MuxState([], 2, 0, Some(Command(1, Rpm)), [">", "41 0C 1F40"], [["41 0D 32"]], [TwoFirst], TwoWrites, false));
  }

  lemma TwoAt6()
    ensures Run(TwoInputs[..6]) == MuxState([], 2, 1, Some(Command(1, Rpm)), [">"],
      [["41 0D 32"], [">", "41 0C 1F40"]], [TwoFirst, TwoSecond], TwoWrites, false)
  {
    TwoAt5();
    PromptThenText("41 0C 1F40");
    RunNext(TwoInputs, 5, MuxState([], 2, 0, Some(Command(1, Rpm)), [">", "41 0C 1F40"], [["41 0D 32"]], [TwoFirst], TwoWrites, false),
      MuxState([], 2, 1, Some(Command(1, Rpm)), [">"], [["41 0D 32"], [">", "41 0C 1F40"]], [TwoFirst, TwoSecond], TwoWrites, false));
  }

  /**
   * Two commands enqueued before either is answered: the first is admitted on
   * the start token, the second on the first prompt, and each gets its own
   * frame.  A prompt arriving in a chunk of its own contributes no text.
   */
  lemma TwoResponsesInOrder()
    ensures var s := Run([Enqueue(Speed), Enqueue(Rpm),
                          Receive(Decoded("41 0D 32")), Receive(Decoded(">")),
                          Receive(Decoded("41 0C 1F40")), Receive(Decoded(">"))]);
      && s.writes == [Speed + "\r", Rpm + "\r"]
      && s.deliveries == [Delivery(0, "41 0D 32"), Delivery(1, "41 0C 1F40")]
      && Response(s.deliveries, 0) == Some("41 0D 32")
      && Response(s.deliveries, 1) == Some("41 0C 1F40")
  {
    TwoAt6();
    assert TwoInputs[..6] == TwoInputs;
  }

  // A response split over two chunks.

  const SplitInputs := [Enqueue(Speed), Receive(Decoded("41 0")), Receive(Decoded("D 32>"))]

  lemma SplitAt2()
    ensures Run(SplitInputs[..2]) == MuxState([], 1, 0, Some(Command(0, Speed)), ["41 0"], [], [], [Speed + "\r"], false)
  {
    assert SplitInputs[..0] == [];
    RunNext(SplitInputs, 0, Init(), MuxState([], 1, 0, Some(Command(0, Speed)), [], [], [], [Speed + "\r"], false));
    RunNext(SplitInputs, 1, MuxState([], 1, 0, Some(Command(0, Speed)), [], [], [], [Speed + "\r"], false),
      MuxState([], 1, 0, Some(Command(0, Speed)), ["41 0"], [], [], [Speed + "\r"], false));
  }

  /**
   * A response split over two chunks whose second ends with the prompt: the
   * prompt chunk is dropped whole, so the frame holds only the first chunk.
   */
  lemma SplitResponseKeepsFirstChunkOnly()
    ensures Run([Enqueue(Speed), Receive(Decoded("41 0")), Receive(Decoded("D 32>"))]).deliveries
      == [Delivery(0, "41 0")]
  {
    SplitAt2();
    FrameTextSingle("41 0");
    RunNext(SplitInputs, 2, MuxState([], 1, 0, Some(Command(0, Speed)), ["41 0"], [], [], [Speed + "\r"], false),
      MuxState([], 1, 1, Some(Command(0, Speed)), ["D 32>"], [["41 0"]], [Delivery(0, "41 0")], [Speed + "\r"], false));
    assert SplitInputs[..3] == SplitInputs;
  }

  // Device chatter before any command.

  const ChatterInputs := [Receive(Decoded("ELM327 v1.5")), Receive(Decoded(">")), Enqueue(Speed),
                          Receive(Decoded("41 0D 32")), Receive(Decoded(">"))]

  lemma ChatterAt2()
    ensures Run(ChatterInputs[..2]) == MuxState([], 0, 2, None, [">"], [["ELM327 v1.5"]], [], [], false)
  {
    assert ChatterInputs[..0] == [];
    RunNext(ChatterInputs, 0, Init(), MuxState([], 0, 1, None, ["ELM327 v1.5"], [], [], [], false));
    RunNext(ChatterInputs, 1, MuxState([], 0, 1, None, ["ELM327 v1.5"], [], [], [], false),
      MuxState([], 0, 2, None, [">"], [["ELM327 v1.5"]], [], [], false));
  }

  lemma ChatterAt4()
    ensures Run(ChatterInputs[..4]) == MuxState([], 1, 1, Some(Command(0, Speed)), [">", "41 0D 32"],
      [["ELM327 v1.5"]], [], [Speed + "\r"], false)
  {
    ChatterAt2();
    RunNext(ChatterInputs, 2, MuxState([], 0, 2, None, [">"], [["ELM327 v1.5"]], [], [], false),
      MuxState([], 1, 1, Some(Command(0, Speed)), [">"], [["ELM327 v1.5"]], [], [Speed + "\r"], false));
    RunNext(ChatterInputs, 3, MuxState([], 1, 1, Some(Command(0, Speed)), [">"], [["ELM327 v1.5"]], [], [Speed + "\r"], false),
      MuxState([], 1, 1, Some(Command(0, Speed)), [">", "41 0D 32"], [["ELM327 v1.5"]], [], [Speed + "\r"], false));
  }

  lemma ChatterAt5()
    ensures Run(ChatterInputs[..5]) == MuxState([], 1, 2, Some(Command(0, Speed)), [">"],
      [["ELM327 v1.5"], [">", "41 0D 32"]], [Delivery(0, "41 0D 32")], [Speed + "\r"], false)
  {
    ChatterAt4();
    PromptThenText("41 0D 32");
    RunNext(ChatterInputs, 4, MuxState([], 1, 1, Some(Command(0, Speed)), [">", "41 0D 32"],
        [["ELM327 v1.5"]], [], [Speed + "\r"], false),
      MuxState([], 1, 2, Some(Command(0, Speed)), [">"], [["ELM327 v1.5"], [">", "41 0D 32"]],
        [Delivery(0, "41 0D 32")], [Speed + "\r"], false));
  }

  /**
   * Device chatter answered by a prompt before any command: its frame is
   * discarded, and the next command still gets its own response.
   */
  lemma SpuriousFrameDiscarded()
    ensures var s := Run([Receive(Decoded("ELM327 v1.5")), Receive(Decoded(">")), Enqueue(Speed),
                          Receive(Decoded("41 0D 32")), Receive(Decoded(">"))]);
      && |s.windows| == 2
      && s.deliveries == [Delivery(0, "41 0D 32")]
  {
    ChatterAt5();
    assert ChatterInputs[..5] == ChatterInputs;
  }

  // A spare prompt before any command.

  const SpareInputs := [Receive(Decoded(">")), Enqueue(Speed), Enqueue(Rpm),
                        Receive(Decoded("41 0D 32")), Receive(Decoded(">"))]

  lemma SpareAt2()
    ensures Run(SpareInputs[..2]) == MuxState([], 1, 1, Some(Command(0, Speed)), [">"], [[]], [], [Speed + "\r"], false)
  {
    assert SpareInputs[..0] == [];
    RunNext(SpareInputs, 0, Init(), MuxState([], 0, 2, None, [">"], [[]], [], [], false));
    RunNext(SpareInputs, 1, MuxState([], 0, 2, None, [">"], [[]], [], [], false),
      MuxState([], 1, 1, Some(Command(0, Speed)), [">"], [[]], [], [Speed + "\r"], false));
  }

  lemma SpareAt4()
    ensures Run(SpareInputs[..4]) == MuxState([], 2, 0, Some(Command(1, Rpm)), [">", "41 0D 32"], [[]], [], TwoWrites, false)
  {
    SpareAt2();
    RunNext(SpareInputs, 2, MuxState([], 1, 1, Some(Command(0, Speed)), [">"], [[]], [], [Speed + "\r"], false),
      MuxState([], 2, 0, Some(Command(1, Rpm)), [">"], [[]], [], TwoWrites, false));
    RunNext(SpareInputs, 3, MuxState([], 2, 0, Some(Command(1, Rpm)), [">"], [[]], [], TwoWrites, false),
      MuxState([], 2, 0, Some(Command(1, Rpm)), [">", "41 0D 32"], [[]], [], TwoWrites, false));
  }

  lemma SpareAt5()
    ensures Run(SpareInputs[..5]) == MuxState([], 2, 1, Some(Command(1, Rpm)), [">"],
      [[], [">", "41 0D 32"]], [Delivery(1, "41 0D 32")], TwoWrites, false)
  {
    SpareAt4();
    PromptThenText("41 0D 32");
    RunNext(SpareInputs, 4, MuxState([], 2, 0, Some(Command(1, Rpm)), [">", "41 0D 32"], [[]], [], TwoWrites, false),
      MuxState([], 2, 1, Some(Command(1, Rpm)), [">"], [[], [">", "41 0D 32"]], [Delivery(1, "41 0D 32")], TwoWrites, false));
  }

  /**
   * A prompt received before any command leaves a second token behind, so
   * two commands are admitted and written back to back; the first response
   * then goes to the second command and the first command gets none.
   */
  lemma SparePromptAdmitsTwo()
    ensures var s := Run([Receive(Decoded(">")), Enqueue(Speed), Enqueue(Rpm),
                          Receive(Decoded("41 0D 32")), Receive(Decoded(">"))]);
      && s.writes == [Speed + "\r", Rpm + "\r"]
      && s.deliveries == [Delivery(1, "41 0D 32")]
      && Response(s.deliveries, 0) == None
  {
    SpareAt5();
    assert SpareInputs[..5] == SpareInputs;
    assert Response([Delivery(1, "41 0D 32")], 0) == None;
  }
}

=== FILE: view_model.dfy ===
/**
 * The two pieces of OBD2Meter/Classes/ViewModel.swift that are not plumbing:
 * the response parser `parse(response:)` and the log appender `logged(_:)`.
 */
module ViewModel {
  import opened Wrappers

  /** The range of Swift's 64-bit `Int`. */
  const IntMin: int := -0x8000_0000_0000_0000
  const IntMax: int := 0x7FFF_FFFF_FFFF_FFFF

  // ---------------------------------------------------------------------
  // trimmingCharacters(in: .whitespacesAndNewlines)

  /**
   * Membership in `CharacterSet.whitespacesAndNewlines`: the Unicode space
   * separators (general category Zs), the line and paragraph separators,
   * tab, the line feed to carriage return controls and NEXT LINE.
   */
  predicate IsWhitespaceOrNewline(c: char)
  {
    || c == ' ' || '\t' <= c <= '\r' || c == '\U{85}' || c == '\U{A0}' || c == '\U{1680}'
    || '\U{2000}' <= c <= '\U{200A}' || c == '\U{2028}' || c == '\U{2029}' || c == '\U{202F}'
    || c == '\U{205F}' || c == '\U{3000}'
  }

  predicate AllWhitespace(s: string)
  {
    forall k :: 0 <= k < |s| ==> IsWhitespaceOrNewline(s[k])
  }

  /** `s` with its leading whitespace removed: a suffix of `s` that does not start with whitespace. */
  function TrimLeading(s: string): (r: string)
    ensures |r| <= |s| && r == s[|s| - |r|..]
    ensures r != [] ==> !IsWhitespaceOrNewline(r[0])
  {
    if s != [] && IsWhitespaceOrNewline(s[0]) then TrimLeading(s[1..]) else s
  }

  /** `s` with its trailing whitespace removed: a prefix of `s` that does not end with whitespace. */
  function TrimTrailing(s: string): (r: string)
    ensures |r| <= |s| && r == s[..|r|]
    ensures r != [] ==> !IsWhitespaceOrNewline(r[|r| - 1])
  {
    if s != [] && IsWhitespaceOrNewline(s[|s| - 1]) then TrimTrailing(s[..|s| - 1]) else s
  }

  /** What `TrimLeading` removes is whitespace. */
  lemma {:induction false} TrimLeadingRemovesWhitespace(s: string)
    ensures AllWhitespace(s[..|s| - |TrimLeading(s)|])
    decreases |s|
  {
    if s != [] && IsWhitespaceOrNewline(s[0]) {
      TrimLeadingRemovesWhitespace(s[1..]);
      var n := |s| - |TrimLeading(s)|;
      forall k | 0 <= k < n
        ensures IsWhitespaceOrNewline(s[..n][k])
      {
        if k > 0 {
          assert s[..n][k] == s[1..][..n - 1][k - 1];
        }
      }
    }
  }

  /** What `TrimTrailing` removes is whitespace. */
  lemma {:induction false} TrimTrailingRemovesWhitespace(s: string)
    ensures AllWhitespace(s[|TrimTrailing(s)|..])
    decreases |s|
  {
    if s != [] && IsWhitespaceOrNewline(s[|s| - 1]) {
      var init := s[..|s| - 1];
      TrimTrailingRemovesWhitespace(init);
      var n := |TrimTrailing(s)|;
      forall k | 0 <= k < |s| - n
        ensures IsWhitespaceOrNewline(s[n..][k])
      {
        if n + k < |s| - 1 {
          assert s[n..][k] == init[n..][k];
        }
      }
    }
  }

  /** `s` is `pad1 + r + pad2` for whitespace pads, `r` starting at index `i`. */
  predicate Padded(s: string, i: nat, r: string)
  {
    i + |r| <= |s| && s[i..i + |r|] == r && AllWhitespace(s[..i]) && AllWhitespace(s[i + |r|..])
  }

  /**
   * `trimmingCharacters(in: .whitespacesAndNewlines)`: what is left once
   * whitespace and newlines are removed from both ends.  The result neither
   * starts nor ends with whitespace.
   */
  function Trim(s: string): (r: string)
    ensures |r| <= |s|
    ensures r != [] ==> !IsWhitespaceOrNewline(r[0]) && !IsWhitespaceOrNewline(r[|r| - 1])
  {
    TrimTrailing(TrimLeading(s))
  }

  /** The trimmed text sits inside the input between two runs of whitespace. */
  lemma TrimPadded(s: string)
    ensures exists i: nat :: Padded(s, i, Trim(s))
  {
    var t := TrimLeading(s);
    var r := Trim(s);
    var i := |s| - |t|;
    TrimLeadingRemovesWhitespace(s);
    TrimTrailingRemovesWhitespace(t);
    assert s[i..i + |r|] == r;
    assert s[i + |r|..] == t[|r|..];
    assert Padded(s, i, r);
  }

  /** Leading whitespace goes one character at a time. */
  lemma TrimLeadingStep(pad: string, t: string)
    requires AllWhitespace(pad) && pad != []
    ensures TrimLeading(pad + t) == TrimLeading(pad[1..] + t) && AllWhitespace(pad[1..])
  {
    var u := pad + t;
    assert u[0] == pad[0] && IsWhitespaceOrNewline(pad[0]);
    assert u[1..] == pad[1..] + t;
    forall k | 0 <= k < |pad| - 1
      ensures IsWhitespaceOrNewline(pad[1..][k])
    {
      assert pad[1..][k] == pad[k + 1];
    }
  }

  lemma {:induction false} TrimLeadingPad(pad: string, t: string)
    requires AllWhitespace(pad)
    requires t != [] && !IsWhitespaceOrNewline(t[0])
    ensures TrimLeading(pad + t) == t
    decreases |pad|
  {
    if pad != [] {
      TrimLeadingStep(pad, t);
      TrimLeadingPad(pad[1..], t);
    } else {
      assert pad + t == t;
    }
  }

  lemma {:induction false} TrimTrailingPad(t: string, pad: string)
    requires AllWhitespace(pad)
    requires t != [] && !IsWhitespaceOrNewline(t[|t| - 1])
    ensures TrimTrailing(t + pad) == t
    decreases |pad|
  {
    if pad != [] {
      assert (t + pad)[..|t + pad| - 1] == t + pad[..|pad| - 1];
      TrimTrailingPad(t, pad[..|pad| - 1]);
    } else {
      assert t + pad == t;
    }
  }

  /** Removing whitespace padding from a string that does not start or end with whitespace gives it back. */
  lemma TrimPadding(pad1: string, r: string, pad2: string)
    requires AllWhitespace(pad1) && AllWhitespace(pad2)
    requires r != [] && !IsWhitespaceOrNewline(r[0]) && !IsWhitespaceOrNewline(r[|r| - 1])
    ensures Trim(pad1 + r + pad2) == r
  {
    assert pad1 + r + pad2 == pad1 + (r + pad2);
    TrimLeadingPad(pad1, r + pad2);
    TrimTrailingPad(r, pad2);
  }

  // ---------------------------------------------------------------------
  // filter { $0 != " " } and dropFirst(4)

  /** Every character except the space U+0020, in order. */
  function RemoveSpaces(s: string): (r: string)
    ensures ' ' !in r
    ensures |r| <= |s|
    ensures forall c :: c != ' ' ==> multiset(r)[c] == multiset(s)[c]
  {
    if s == [] then []
    else
      assert s == [s[0]] + s[1..];
      (if s[0] == ' ' then [] else [s[0]]) + RemoveSpaces(s[1..])
  }

  /** Removing spaces works piece by piece, so the kept characters stay in order. */
  lemma {:induction false} RemoveSpacesAppend(a: string, b: string)
    ensures RemoveSpaces(a + b) == RemoveSpaces(a) + RemoveSpaces(b)
    decreases |a|
  {
    if a != [] {
      assert (a + b)[1..] == a[1..] + b;
      RemoveSpacesAppend(a[1..], b);
    } else {
      assert a + b == b;
    }
  }

  /** A string without spaces is left as it is. */
  lemma {:induction false} RemoveSpacesNone(s: string)
    requires ' ' !in s
    ensures RemoveSpaces(s) == s
    decreases |s|
  {
    if s != [] {
      assert s[0] != ' ';
      RemoveSpacesNone(s[1..]);
    }
  }

  /** Swift's `dropFirst(n)`: everything after the first `n` characters, or nothing when there are fewer. */
  function DropFirst(s: string, n: nat): (r: string)
    ensures |r| == if |s| <= n then 0 else |s| - n
    ensures forall k :: 0 <= k < |r| ==> r[k] == s[n + k]
  {
    if |s| <= n then [] else s[n..]
  }

  lemma DropHeader(header: string, rest: string)
    requires |header| == 4
    ensures DropFirst(header + rest, 4) == rest
  {
    if rest != [] {
      assert (header + rest)[4..] == rest;
    }
  }

  // ---------------------------------------------------------------------
  // Int(_:radix: 16)

  /** The value of a hexadecimal digit, either case. */
  function HexDigit(c: char): (r: Option<nat>)
    ensures r.Some? ==> r.value < 16
  {
    if '0' <= c <= '9' then Some(c as int - '0' as int)
    else if 'a' <= c <= 'f' then Some(c as int - 'a' as int + 10)
    else if 'A' <= c <= 'F' then Some(c as int - 'A' as int + 10)
    else None
  }

  predicate AllHexDigits(s: string)
  {
    forall k :: 0 <= k < |s| ==> HexDigit(s[k]).Some?
  }

  /** The value of a run of hexadecimal digits, most significant first; the empty run is 0, and `IntRadix16` rejects it separately. */
  function DigitsValue(s: string): nat
    requires AllHexDigits(s)
  {
    if s == [] then 0 else DigitsValue(s[..|s| - 1]) * 16 + HexDigit(s[|s| - 1]).value
  }

  /**
   * `Int(text, radix: 16)`: an optional `+` or `-` followed by one or more
   * hexadecimal digits of either case, whose value fits in a 64-bit `Int`;
   * anything else, the empty string and a lone sign included, gives `nil`.
   */
  function IntRadix16(text: string): (r: Option<int>)
    ensures r.Some? ==> IntMin <= r.value <= IntMax
    ensures r.Some? ==> text != [] && text != "+" && text != "-"
  {
    var negative := |text| > 0 && text[0] == '-';
    var digits := if |text| > 0 && (text[0] == '-' || text[0] == '+') then text[1..] else text;
    if digits == [] || !AllHexDigits(digits) then None
    else
      var m: int := DigitsValue(digits);
      var v := if negative then -m else m;
      if IntMin <= v <= IntMax then Some(v) else None
  }

  /** The upper-case hexadecimal numeral of `n`, without leading zeros. */
  function HexNumeral(n: nat): (r: string)
    ensures r != [] && AllHexDigits(r)
    ensures r[0] != '+' && r[0] != '-'
  {
    var d := "0123456789ABCDEF"[n % 16];
    assert HexDigit(d).Some?;
    if n < 16 then [d] else HexNumeral(n / 16) + [d]
  }

  lemma {:induction false} HexNumeralValue(n: nat)
    ensures DigitsValue(HexNumeral(n)) == n
    decreases n
  {
    var d := "0123456789ABCDEF"[n % 16];
    assert HexDigit(d) == Some(n % 16);
    if n >= 16 {
      HexNumeralValue(n / 16);
      assert HexNumeral(n)[..|HexNumeral(n)| - 1] == HexNumeral(n / 16);
    }
  }

  /** An unsigned run of digits reads as its value while that fits in an `Int`. */
  lemma UnsignedDigits(digits: string)
    requires digits != [] && AllHexDigits(digits) && DigitsValue(digits) <= IntMax
    ensures IntRadix16(digits) == Some(DigitsValue(digits) as int)
  {
    assert HexDigit(digits[0]).Some?;
  }

  /** Every `Int` from 0 up reads back from its hexadecimal numeral. */
  lemma HexRoundTrip(n: nat)
    requires n <= IntMax
    ensures IntRadix16(HexNumeral(n)) == Some(n)
  {
    HexNumeralValue(n);
    UnsignedDigits(HexNumeral(n));
  }

  // ---------------------------------------------------------------------
  // parse(response:)

  /**
   * What `parse` hands to `Int(_:radix:)`: the response trimmed, without
   * spaces, and with its first four characters dropped unchecked.
   */
  function Tail(response: string): string
  {
    DropFirst(RemoveSpaces(Trim(response)), 4)
  }

  /** `parse` does not trap: the force unwrap of `Int(_:radix:)` succeeds. */
  predicate Parsable(response: string)
  {
    IntRadix16(Tail(response)).Some?
  }

  /** `parse(response:)`: the hexadecimal value after the four-character header. */
  function Parse(response: string): (r: int)
    requires Parsable(response)
    ensures IntMin <= r <= IntMax
  {
    IntRadix16(Tail(response)).value
  }

  /** A response `parse` accepts has at least five characters once trimmed and rid of spaces. */
  lemma ParsableNeedsFive(response: string)
    requires Parsable(response)
    ensures |RemoveSpaces(Trim(response))| >= 5
  {
  }

  /** Trimming removes exactly the whitespace pads around a header and what follows it. */
  lemma TrimAround(pad1: string, header: string, rest: string, pad2: string)
    requires AllWhitespace(pad1) && AllWhitespace(pad2)
    requires header != [] && !IsWhitespaceOrNewline(header[0])
    requires rest != [] && !IsWhitespaceOrNewline(rest[|rest| - 1])
    ensures Trim(pad1 + header + rest + pad2) == header + rest
  {
    var body := header + rest;
    var tail := body + pad2;
    assert tail[0] == header[0] && body[|body| - 1] == rest[|rest| - 1];
    assert pad1 + header + rest + pad2 == pad1 + tail;
    TrimLeadingPad(pad1, tail);
    TrimTrailingPad(body, pad2);
  }

  /** Whitespace around the response goes, then spaces, then the four header characters. */
  lemma TailAfterHeader(pad1: string, header: string, rest: string, pad2: string)
    requires AllWhitespace(pad1) && AllWhitespace(pad2)
    requires header != [] && !IsWhitespaceOrNewline(header[0]) && |RemoveSpaces(header)| == 4
    requires rest != [] && !IsWhitespaceOrNewline(rest[|rest| - 1])
    ensures Tail(pad1 + header + rest + pad2) == RemoveSpaces(rest)
  {
    var response := pad1 + header + rest + pad2;
    TrimAround(pad1, header, rest, pad2);
    var spaceless := RemoveSpaces(header + rest);
    assert spaceless == RemoveSpaces(header) + RemoveSpaces(rest) by {
      RemoveSpacesAppend(header, rest);
    }
    DropHeader(RemoveSpaces(header), RemoveSpaces(rest));
    assert Tail(response) == DropFirst(spaceless, 4);
  }

  /**
   * `parse` reads the value after any header of four non-space characters,
   * whatever those are: the header is not checked against the request.  The
   * response may carry whitespace and line ends on either side, spaces may
   * separate the header and the bytes of the value, and the digits may be of
   * either case and have leading zeros.
   */
  lemma ParseReadsHexTail(pad1: string, header: string, rest: string, pad2: string)
    requires AllWhitespace(pad1) && AllWhitespace(pad2)
    requires header != [] && !IsWhitespaceOrNewline(header[0]) && |RemoveSpaces(header)| == 4
    requires rest != [] && !IsWhitespaceOrNewline(rest[|rest| - 1])
    requires RemoveSpaces(rest) != [] && AllHexDigits(RemoveSpaces(rest))
    requires DigitsValue(RemoveSpaces(rest)) <= IntMax
    ensures Parsable(pad1 + header + rest + pad2)
    ensures Parse(pad1 + header + rest + pad2) == DigitsValue(RemoveSpaces(rest))
  {
    TailAfterHeader(pad1, header, rest, pad2);
    UnsignedDigits(RemoveSpaces(rest));
  }

  lemma SpeedHeader()
    ensures |RemoveSpaces("41 0D")| == 4 && !IsWhitespaceOrNewline("41 0D"[0])
  {
    assert RemoveSpaces("41 0D") == "410D";
  }

  lemma SpeedValue()
    ensures RemoveSpaces(" 32") == "32" && AllHexDigits("32") && DigitsValue("32") == 50
    ensures !IsWhitespaceOrNewline(" 32"[2])
  {
    assert HexDigit('3') == Some(3) && HexDigit('2') == Some(2);
    assert "32"[..1] == "3";
  }

  lemma SpeedParts()
    ensures "" + "41 0D" + " 32" + "" == "41 0D 32"
  {
  }

  /** A typical adapter answer to the speed command: `41 0D 32` gives 50 (0x32). */
  lemma ParseSpeedExample()
    ensures Parsable("41 0D 32") && Parse("41 0D 32") == 50
  {
    SpeedHeader();
    SpeedValue();
    SpeedParts();
    ParseReadsHexTail("", "41 0D", " 32", "");
  }

  lemma ZeroPaddedValue()
    ensures RemoveSpaces(" 05") == "05" && AllHexDigits("05") && DigitsValue("05") == 5
    ensures !IsWhitespaceOrNewline(" 05"[2]) && AllWhitespace("\r")
  {
    assert HexDigit('0') == Some(0) && HexDigit('5') == Some(5);
    assert "05"[..1] == "0";
  }

  lemma ZeroPaddedParts()
    ensures "" + "41 0D" + " 05" + "\r" == "41 0D 05\r"
  {
  }

  /** A zero-padded byte with the line end still attached: `41 0D 05` and a carriage return give 5. */
  lemma ParseZeroPaddedExample()
    ensures Parsable("41 0D 05\r") && Parse("41 0D 05\r") == 5
  {
    SpeedHeader();
    ZeroPaddedValue();
    ZeroPaddedParts();
    ParseReadsHexTail("", "41 0D", " 05", "\r");
  }

  lemma RpmHeader()
    ensures |RemoveSpaces("41 0C")| == 4 && !IsWhitespaceOrNewline("41 0C"[0])
  {
    assert RemoveSpaces("41 0C") == "410C";
  }

  lemma RpmValue()
    ensures RemoveSpaces(" 1F40") == "1F40" && AllHexDigits("1F40") && DigitsValue("1F40") == 8000
    ensures !IsWhitespaceOrNewline(" 1F40"[4])
  {
    assert HexDigit('1') == Some(1) && HexDigit('F') == Some(15) && HexDigit('4') == Some(4) && HexDigit('0') == Some(0);
    assert "1F40"[..3] == "1F4" && "1F4"[..2] == "1F" && "1F"[..1] == "1";
  }

  lemma RpmParts()
    ensures "" + "41 0C" + " 1F40" + "" == "41 0C 1F40"
  {
  }

  /** A typical adapter answer to the engine-speed command: `41 0C 1F40` gives 8000 (0x1F40), four times 2000 rpm. */
  lemma ParseRpmExample()
    ensures Parsable("41 0C 1F40") && Parse("41 0C 1F40") == 8000
  {
    RpmHeader();
    RpmValue();
    RpmParts();
    ParseReadsHexTail("", "41 0C", " 1F40", "");
  }

  // ---------------------------------------------------------------------
  // logged(_:)

  /** The `_log` relay: the text shown in the log view. */
  class Log {
    var text: string

    constructor ()
      ensures text == ""
    {
      text := "";
    }

    /** `logged(_:)`: the message and a line feed are appended; earlier text is left as it was. */
    method Logged(message: string)
      modifies this
      ensures text == old(text) + message + "\n"
      ensures old(text) <= text
    {
      text := text + message + "\n";
    }
  }
}

=== FILE: wrappers.dfy ===
/** Optional values, standing for Swift's `T?`. */
module Wrappers {
  datatype Option<+T> = None | Some(value: T)
}
